=== FILE: README.md ===
# Breach dashboard core, modelled in Dafny

The dashboard is a React front end to a breach-lookup service. It has three
pages with logic of their own:

- **The scan page** (`src/pages/Index.tsx`). It checks an email address or
  a domain before querying the service. It turns an unsuccessful response
  into an error message, and shows that message as a yellow rate-limit alert
  or a red error alert. It also normalises the email response's list of
  breach names, which comes flat or wrapped once in an outer list.
- **The breach-analytics page** (`src/pages/BreachRisk.tsx`).
  - It folds the three-level `xposed_data` tree into one row per distinct
    sub-category name, summing the sub-categories that share that name under
    any top-level node. Each row carries the category's total, its
    per-data-type counts and its colour, and the rows are sorted by total,
    largest first.
  - It cuts the breach list of the bar chart to ten entries.
  - It picks the severity badge of a breach.
- **The exposed-breach page** (`src/pages/ExposedBreach.tsx`).
  - It fetches the breach catalogue and sorts it newest first.
  - It computes three summary figures: affected accounts, verified breaches
    and exposed passwords.
  - It pages the table ten rows at a time, behind a pager that shows a
    window of five page links.
  - It abbreviates large numbers as K, M or B.

The model is a set of pure functions over immutable datatypes, one module
per concern:

| module | file | what it holds |
|---|---|---|
| `Wrappers` | `wrappers.dfy` | `Option` and `Result` |
| `Sums` | `sums.dfy` | the sum of a measure over a sequence, with append, update and monotonicity lemmas |
| `Text` | `text.dfy` | character classes, ASCII lower-casing, substring search (`includes`), decimal numerals and their parser, split and join |
| `Keyed` | `keyed.dfy` | first-index lookup by name; it models a JavaScript `Map` as a list in insertion order |
| `Ranking` | `ranking.dfy` | the stable descending sort the pages use; it proves a permutation, order and stability |
| `Severity` | `severity.dfy` | `getBadgeVariant` |
| `Errors` | `errors.dfy` | the messages the query functions throw, and `getRateLimitMessage` |
| `ScanForm` | `scan_form.dfy` | `parseBreachList`, `handleEmailCheck`, `handleDomainCheck`, and the domain regular expression |
| `BreachRisk` | `breach_risk.dfy` | `prepareDataCategories`, `categoryColors`, `prepareChartData` |
| `Catalogue` | `catalogue.dfy` | `fetchBreaches`, `sortedBreaches`, the three figures, `formatNumber` |
| `Pagination` | `pagination.dfy` | `totalPages`, `currentBreaches`, `getPageRange`, the Previous and Next buttons, the pager's links and ellipses |

Three computations are checked against an independent reference definition:

- **Category totals.** `prepareDataCategories` builds a mutable `Map` in
  three nested loops. The model does the same with an accumulator. The
  lemmas relate the result to a direct, recursive reading of the tree:
  - totals per name and per data type;
  - the set of names;
  - uniqueness of names;
  - first-seen order;
  - the order of ties after sorting.
- **Domain check.** The domain regular expression is modelled as a search
  over split points. It is proved equal to "every dot-separated label is 1 to
  63 letters, digits or hyphens, and starts and ends with a letter or digit".
- **Pager.** The window and the links are proved to keep the page in range
  and to show the first and last pages exactly when the window hides them.

## Model

| member | source | states |
|---|---|---|
| `Severity.BadgeVariantOf` | src/pages/Index.tsx:158-169 | "high" in any case gives the destructive badge and "low" the outline badge, and only those words; everything else, a missing severity included, gives the secondary badge |
| `Severity.CaseInsensitive` | src/pages/BreachRisk.tsx:99-110 | the badge depends on the letters of the severity only, not on their case |
| `Severity.NeutralFallback` | src/pages/Index.tsx:162-168 | "medium", a missing severity and any unrecognised word all give the secondary badge |
| `Severity.UpperCaseExamples` | src/pages/BreachRisk.tsx:100-108 | "HIGH", "Low", "Medium" and "critical" give the destructive, outline, secondary and secondary badges |
| `Errors.MinutesToWait` | src/pages/Index.tsx:55-57 | the minutes in the rate-limit message are the least whole number of minutes covering `retry_after` seconds, for any real number of seconds |
| `Errors.MinutesText` | src/pages/Index.tsx:54-58 | the wait reads back as those minutes; a `null` `retry_after` shows "0" and a missing one "NaN" |
| `Errors.RateLimitMessage` | src/pages/BreachRisk.tsx:74-78 | the thrown rate-limit message starts with "Rate limit exceeded", the phrase the alert looks for |
| `Errors.QueryError` | src/pages/Index.tsx:83-98 | a query throws exactly when the status is not 2xx. A 429 gives the rate-limit message on the email, domain and analytics queries. A 404 on the domain query gives the server's non-empty `detail`, or "Invalid domain or no data found". Every other status, a 404 on the other queries included, gives the query's own fixed message, and the catalogue query always does |
| `Errors.AlertFor` | src/pages/Index.tsx:181-201 | the rate-limit alert is chosen exactly when the message contains "Rate limit exceeded". Otherwise the error alert shows the message, or "Failed to fetch data" when there is none. The text is never empty |
| `Errors.RateLimitMinutesReadBack` | src/pages/BreachRisk.tsx:72-78 | the text between "Please try again in " and " minutes." in the rate-limit message parses back to the rounded-up minutes |
| `Errors.RateLimitedQueryShowsRateLimitAlert` | src/pages/Index.tsx:52-58 | a 429 on a query with a 429 branch ends in the yellow rate-limit alert carrying the thrown message |
| `Errors.FailureMessageShowsErrorAlert` | src/pages/BreachRisk.tsx:112-131 | the fixed failure messages always land in the red error alert with their own text |
| `Errors.DomainNotFoundAlert` | src/pages/Index.tsx:92-97 | a 404 on the domain query shows the server's `detail` when it is non-empty, and otherwise "Invalid domain or no data found". It uses the rate-limit alert only when the detail itself mentions the rate limit |
| `ScanForm.ParseBreachList` | src/pages/Index.tsx:171-179 | a missing field or a non-array gives no breaches. An array whose first element is an array gives that first element. Any other array is returned as it is |
| `ScanForm.BreachListFormatsAgree` | src/pages/Index.tsx:171-179 | a flat list of breaches and the same list wrapped in an outer list parse to the same breaches; whatever follows the wrapped list is dropped |
| `ScanForm.ParseBreachListIsStable` | src/pages/Index.tsx:175-178 | parsing an already parsed list again leaves it unchanged, unless its first element is itself a list |
| `ScanForm.NestedFormatExample` | src/pages/Index.tsx:175-176 | `[["A","B"]]` parses to the two breaches "A" and "B" |
| `ScanForm.ContainsCharIffMember` | src/pages/Index.tsx:109 | `includes("@")` holds exactly when the character occurs in the string |
| `ScanForm.EmailSubmission` | src/pages/Index.tsx:108-118 | the email query is sent exactly when the input contains '@'; otherwise the "Invalid Email" toast is shown |
| `ScanForm.LabelPatternIsValidLabel` | src/pages/Index.tsx:131-132 | one label of the regular expression matches exactly the strings of 1 to 63 letters, digits and hyphens that start and end with a letter or digit |
| `ScanForm.ValidDomainFirstLabel` | src/pages/Index.tsx:131-132 | the label rule read from the left: the part before the first dot is a label, and what follows the dot is again a valid domain |
| `ScanForm.DomainPatternIsLabelRule` | src/pages/Index.tsx:131-133 | the anchored domain expression accepts a string exactly when every dot-separated part of it is a valid label |
| `ScanForm.DomainPatternShape` | src/pages/Index.tsx:131-132 | an accepted domain is non-empty, uses only letters, digits, hyphens and dots, starts and ends with a letter or digit, and has a letter or digit on both sides of every dot |
| `ScanForm.DomainSubmission` | src/pages/Index.tsx:120-143 | the domain query is sent exactly for valid domains. An empty input gets the "Invalid Domain" toast; a malformed one gets "Invalid Domain Format" |
| `ScanForm.AcceptsExampleCom` | src/pages/Index.tsx:131-142 | "example.com" is queried |
| `ScanForm.RejectsLeadingHyphen` | src/pages/Index.tsx:131-139 | "-bad.com" is refused as a malformed domain |
| `ScanForm.RejectsEmptyLabel` | src/pages/Index.tsx:131-139 | "example..com" is refused as a malformed domain |
| `BreachRisk.CategoryLabel` | src/pages/BreachRisk.tsx:183 | a sub-category's name, or "Unknown Category" when the name is missing or empty |
| `BreachRisk.StripDataPrefix` | src/pages/BreachRisk.tsx:195-196 | a leading "data_" is removed once, and only at the start |
| `BreachRisk.ItemLabel` | src/pages/BreachRisk.tsx:195-196 | a data type's name without its "data_" prefix, or "Unknown" when that leaves nothing |
| `BreachRisk.ItemLabelExamples` | src/pages/BreachRisk.tsx:195-196 | "data_email" shows as "email", "data_data_x" as "data_x", "data_" as "Unknown", and "password" unchanged |
| `BreachRisk.AddLeaf` | src/pages/BreachRisk.tsx:195-202 | one data type adds its value to the category total and to exactly its own item count; the item names gain exactly its label. An existing label keeps its place in the item order; a new one goes at the end |
| `BreachRisk.AddLeaves` | src/pages/BreachRisk.tsx:189-204 | a sub-category's children add their value total to the category, and to each item the total of the children with that label |
| `BreachRisk.Tally` | src/pages/BreachRisk.tsx:184-206 | a sub-category without children leaves its category's counts unchanged; with children it adds them as above |
| `BreachRisk.Existing` | src/pages/BreachRisk.tsx:184-187 | the category carries the name asked for, and a name not yet in the map gives a fresh category with count 0 and no items |
| `BreachRisk.ExistingIsStored` | src/pages/BreachRisk.tsx:184 | a name already in the map gives one of the stored categories |
| `BreachRisk.Store` | src/pages/BreachRisk.tsx:208 | `categories.set` replaces the entry of that name and no other, keeps names unique, and adjusts the total by the difference |
| `BreachRisk.AddSub` | src/pages/BreachRisk.tsx:182-208 | processing one sub-category adds its total to the grand total and changes only the category of its own name |
| `BreachRisk.CollectSubs` | src/pages/BreachRisk.tsx:181-209 | after a run of sub-categories, each name's total and item counts are the earlier ones plus those of the sub-categories with that name. The name set grows by their names, stays free of duplicates, and the grand total grows by their totals |
| `BreachRisk.CollectSubsAppend` | src/pages/BreachRisk.tsx:181-209 | processing two runs of sub-categories one after the other is the same as processing them joined |
| `BreachRisk.Collected` | src/pages/BreachRisk.tsx:175-216 | the categories gathered by the two outer loops from an empty map are those of one pass over all sub-categories of the tree, in order |
| `BreachRisk.CollectTopsFlattens` | src/pages/BreachRisk.tsx:175-210 | the two outer loops are one loop over the sub-categories of all top-level nodes in order; a top-level node without children contributes none |
| `BreachRisk.SubcategoriesTotal` | src/pages/BreachRisk.tsx:175-210 | the values of all sub-categories add up to the value of the whole tree |
| `BreachRisk.CategoryColor` | src/pages/BreachRisk.tsx:222 | each palette category gets a colour other than the fallback. A key inherited from `Object.prototype`, such as "constructor", gets that inherited member. Every other name gets "#CCCCCC" |
| `BreachRisk.KnownColorsAreDistinct` | src/pages/BreachRisk.tsx:152-158 | the five palette categories have five different colours, and "Unknown Category" gets the fallback |
| `BreachRisk.Rows` | src/pages/BreachRisk.tsx:218-227 | one row per map entry, in map order, carrying the name, total, colour and items |
| `BreachRisk.PrepareDataCategories` | src/pages/BreachRisk.tsx:161-232 | no data gives no rows, and the rows are ordered by total, largest first |
| `BreachRisk.CategoryTotalsMatchTree` | src/pages/BreachRisk.tsx:161-232 | the row totals add up to the value of the whole tree |
| `BreachRisk.CategoryNamesUnique` | src/pages/BreachRisk.tsx:167-218 | no category name appears on two rows |
| `BreachRisk.CategoryNamesExact` | src/pages/BreachRisk.tsx:175-218 | the rows' names are exactly the labels of the sub-categories in the tree |
| `BreachRisk.CategoryRowsMatchTree` | src/pages/BreachRisk.tsx:181-228 | each row's total and per-data-type counts are the sums over the tree's sub-categories of that name, each row has its name's colour, and each item count is that data type's total |
| `BreachRisk.TiesKeepAccumulationOrder` | src/pages/BreachRisk.tsx:218-228 | rows with equal totals keep the order in which their names were first met |
| `BreachRisk.StoreOrder` | src/pages/BreachRisk.tsx:208 | `set` on an existing name keeps the name order; on a new name it appends the name |
| `BreachRisk.CollectSubsOrder` | src/pages/BreachRisk.tsx:181-209 | map order after a run of sub-categories is the earlier order followed by the names not seen before, in first-seen order |
| `BreachRisk.AddLeavesOrder` | src/pages/BreachRisk.tsx:189-203 | the children of a sub-category add their labels to the item order in the order they are met, each label only the first time |
| `BreachRisk.AddSubItemOrder` | src/pages/BreachRisk.tsx:182-208 | one sub-category extends the item order of its own name only; every other name keeps its item order |
| `BreachRisk.CollectSubsItemOrder` | src/pages/BreachRisk.tsx:181-209 | after a run of sub-categories, a name's items are its earlier items followed by the labels first met under the sub-categories of that name |
| `BreachRisk.RowItemOrder` | src/pages/BreachRisk.tsx:175-226 | each accumulated category lists its items in the order their labels are first met under the sub-categories of its name |
| `BreachRisk.ItemsInFirstSeenOrder` | src/pages/BreachRisk.tsx:218-228 | every row, after sorting, lists its data types in the order they are first met in the tree under that row's name, which is the order the list shows them in (src/pages/BreachRisk.tsx:410) |
| `BreachRisk.FirstSeenAppend` | src/pages/BreachRisk.tsx:198-201 | recording first appearances over two runs in turn gives the same order as over the joined run |
| `BreachRisk.AccumulationOrderIsFirstSeen` | src/pages/BreachRisk.tsx:167-218 | before sorting, categories appear in the order their names are first met in the tree |
| `BreachRisk.ChildlessTopContributesNothing` | src/pages/BreachRisk.tsx:181 | removing a top-level node without children does not change the result |
| `BreachRisk.ChildlessSubcategoryShownEmpty` | src/pages/BreachRisk.tsx:184-207 | a sub-category name whose every occurrence has no children still gets a row, with total 0 and no items |
| `BreachRisk.ChartEntryOf` | src/pages/BreachRisk.tsx:138-146 | a chart entry has the breach's non-empty name, or "Unknown" when the name is missing or empty. It has the record count when one is given, or 0, and a year exactly when a non-empty date is given |
| `BreachRisk.PrepareChartData` | src/pages/BreachRisk.tsx:135-149 | the chart holds the first ten breaches (or all, when there are fewer), each converted in place; with no details it is empty |
| `BreachRisk.ChartIgnoresLaterEntries` | src/pages/BreachRisk.tsx:148 | breaches after the tenth do not change the chart |
| `Ranking.SortDesc` | src/pages/BreachRisk.tsx:228 | the sorted rows are a permutation of the input, ordered by key, largest first |
| `Ranking.SortDescIsStable` | src/pages/BreachRisk.tsx:228 | elements with equal keys keep their input order, as `Array.prototype.sort` is stable since ECMAScript 2019 |
| `Ranking.SortDescSum` | src/pages/BreachRisk.tsx:218-228 | sorting does not change the sum of any measure over the rows |
| `Ranking.SortDescKeepsDistinct` | src/pages/BreachRisk.tsx:218-228 | sorting keeps names free of duplicates |
| `Text.LowerIsPointwise` | src/pages/BreachRisk.tsx:100 | lower-casing maps each character on its own and keeps the length |
| `Text.LowerIdempotent` | src/pages/Index.tsx:159 | lower-casing twice is lower-casing once |
| `Text.ContainsIffOccurrence` | src/pages/Index.tsx:182 | `includes` holds exactly when the text occurs at some position |
| `Text.IntToStringRoundTrip` | src/pages/ExposedBreach.tsx:91 | the decimal numeral of a number parses back to that number |
| `Text.JoinSplit` | src/pages/Index.tsx:132 | joining the dot-separated parts with dots gives back the input |
| `Catalogue.FetchBreaches` | src/pages/ExposedBreach.tsx:56-65 | a non-2xx status fails with the catalogue's message, the same one the error classifier gives. Otherwise the result is `exposedBreaches` when it is an array, and the empty list otherwise |
| `Catalogue.SortedBreaches` | src/pages/ExposedBreach.tsx:103-109 | the sorted copy is a permutation of the response, newest first; no data gives no rows |
| `Catalogue.SameDateKeepsResponseOrder` | src/pages/ExposedBreach.tsx:103-109 | breaches with the same date keep their response order |
| `Catalogue.NewestFirstExample` | src/pages/ExposedBreach.tsx:102-109 | a 2021 breach listed before a 2023 one is shown after it |
| `Catalogue.Verified` | src/pages/ExposedBreach.tsx:118-120 | the filter keeps exactly the verified breaches |
| `Catalogue.VerifiedCountIsSum` | src/pages/ExposedBreach.tsx:118-120 | the verified count equals one point per verified breach |
| `Catalogue.VerifiedBreaches` | src/pages/ExposedBreach.tsx:118-120 | the verified count is at most the number of breaches. It equals that number exactly when all are verified, and is 0 exactly when none is |
| `Catalogue.PasswordRecords` | src/pages/ExposedBreach.tsx:122-134 | a breach adds its records to the password figure exactly when some exposed data type mentions "password" in any case and its password risk is not "unknown" |
| `Catalogue.AnyMentionsPassword` | src/pages/ExposedBreach.tsx:125-130 | the page's search succeeds exactly when some data type, lower-cased, contains "password" |
| `Catalogue.TotalAffectedAccounts` | src/pages/ExposedBreach.tsx:111-116 | with non-negative record counts, the total is non-negative and at least the records of each breach |
| `Catalogue.ExposedPasswords` | src/pages/ExposedBreach.tsx:111-134 | with non-negative record counts, the exposed-password figure lies between 0 and the affected-accounts figure |
| `Catalogue.PasswordTestIgnoresCase` | src/pages/ExposedBreach.tsx:127-128 | the password test does not depend on letter case |
| `Catalogue.FiguresIgnoreOrder` | src/pages/ExposedBreach.tsx:102-134 | the three figures computed on the sorted copy equal those of the response as received |
| `Catalogue.FormatNumber` | src/pages/ExposedBreach.tsx:83-92 | numbers below 1000 show as their numeral, which reads back as the number. Larger numbers are scaled to the K, M or B unit they reach, and stay below a thousand of that unit for K and M |
| `Catalogue.FormatNumberPicksLargestScale` | src/pages/ExposedBreach.tsx:84-90 | the chosen unit is the largest one the number reaches |
| `Catalogue.FormatNumberScaleIsMonotone` | src/pages/ExposedBreach.tsx:84-90 | a larger number never gets a smaller unit |
| `Pagination.TotalPages` | src/pages/ExposedBreach.tsx:137-139 | the page count is the least number of ten-row pages holding the list, and 0 exactly for an empty list |
| `Pagination.Slice` | src/pages/ExposedBreach.tsx:142 | `slice` with non-negative bounds takes the positions between them, cut at the end of the list |
| `Pagination.PageRows` | src/pages/ExposedBreach.tsx:140-142 | a page never holds more than ten rows |
| `Pagination.PageRowsWindow` | src/pages/ExposedBreach.tsx:140-142 | page p holds positions 10(p-1) to 10p of the sorted list. Every page up to the count is non-empty, and every page before the last is full |
| `Pagination.PagesPartitionList` | src/pages/ExposedBreach.tsx:137-142 | pages 1 to the page count, read in order, are exactly the list |
| `Pagination.PageRange` | src/pages/ExposedBreach.tsx:145-159 | the window holds min(5, page count) consecutive page numbers, all between 1 and the page count; it starts two pages before the current page, but not before page 1 and not so late that it would end past the last page, i.e. at max(1, min(current − 2, page count − 4)) |
| `Pagination.PageRangeContainsCurrent` | src/pages/ExposedBreach.tsx:145-159 | the window always contains the current page when that page exists |
| `Pagination.PreviousPage` | src/pages/ExposedBreach.tsx:394-397 | Previous moves one page back and never below page 1 |
| `Pagination.NextPage` | src/pages/ExposedBreach.tsx:456-460 | Next moves one page on and never past the last page |
| `Pagination.ClicksKeepPageInRange` | src/pages/ExposedBreach.tsx:389-470 | from a page in range, any control of the pager leads to a page in range |
| `Pagination.ClickSequenceKeepsPageInRange` | src/pages/ExposedBreach.tsx:389-470 | any run of clicks keeps the current page in range |
| `Pagination.WindowLinks` | src/pages/ExposedBreach.tsx:421-439 | one link per window page. Some link is active exactly when the current page is in the window, and for a window without repeated pages at most one is |
| `Pagination.PagerAsWritten` | src/pages/ExposedBreach.tsx:389-470 | the pager as the page renders it: nothing for a single page, Previous disabled on page 1 and Next on the last page |
| `Pagination.PagerFor` | src/pages/ExposedBreach.tsx:389-470 | the corrected pager, with the same visibility and the same Previous and Next states |
| `Pagination.PagerHasOneActiveLink` | src/pages/ExposedBreach.tsx:421-439 | the corrected pager shows the link to the current page, and it is the only active link |
| `Pagination.AsWrittenHasOneActiveLink` | src/pages/ExposedBreach.tsx:407-454 | the same for the pager as written: the edge links are never active |
| `Pagination.EdgeLinksShowHiddenEnds` | src/pages/ExposedBreach.tsx:407-454 | the first-page link is shown exactly when page 1 is outside the window, and the last-page link exactly when the last page is |
| `Pagination.AsWrittenEllipsisHidesNothing` | src/pages/ExposedBreach.tsx:416-418 | with six pages on page 5, the page as written puts an ellipsis between the links to pages 1 and 2 |
| `Pagination.AsWrittenTrailingEllipsisHidesNothing` | src/pages/ExposedBreach.tsx:443-445 | with six pages on page 1, the page as written puts an ellipsis between the links to pages 5 and 6 |
| `Pagination.AsWrittenMarksAGapThatIsNotThere` | src/pages/ExposedBreach.tsx:416-418 | the page as written breaks the rule that an ellipsis stands for at least one hidden page |
| `Pagination.AsWrittenDiffersOnlyOnSixPages` | src/pages/ExposedBreach.tsx:407-454 | the page as written and the corrected pager differ exactly with six pages and the current page among 1, 2, 5 and 6 |
| `Pagination.PagerMarksExactlyTheGaps` | src/pages/ExposedBreach.tsx:407-454 | the corrected pager starts with a link to page 1 and ends with a link to the last page. Side-by-side links are consecutive, and every ellipsis stands between two links with at least one page between them |

## Left out

- Fetching, `response.json()`, React state and rendering are not modelled.
  Each query function becomes a function of the status and of the fields it
  reads from the body. A body that fails to parse as JSON would throw, and
  that error is not modelled.
- `formatDate` and `new Date(...)` are not modelled. Breach dates are taken
  as already converted time values, and chart years as given.
- `Catalogue.FormatNumber`: the digits of `toFixed(1)` are not modelled.
  - They depend on binary floating-point division and rounding, for example
    999 960 shows as "1000.0K".
  - The model returns the number together with the unit it is divided by.
- `Errors.MinutesToWait`: `retry_after` is a real number, JSON `null` or
  absent. A string or other JSON value, which JavaScript would coerce before
  dividing, is not modelled, and neither is floating-point rounding of the
  division.
- `BreachRisk.PrepareChartData`: a `breaches_details` value that is truthy
  but not an array, and a `null` entry in it, make the source throw. The
  model's input is a list of entries or nothing, so it cannot express either
  case.
- `Catalogue.SortedBreaches`: a `breachedDate` that `new Date` cannot parse
  makes the comparator return NaN, and the resulting order then depends on
  the JavaScript engine. The model takes every date as a time value, so it
  promises newest first for every input.
- `formatNumber` of a breach without `exposedRecords` would throw on
  `undefined.toString()`. The model types the table cell as a number.
- `Number(level3.value) || 0`: coercion of strings and booleans to numbers
  is not modelled. A value is a whole number or missing, and missing or NaN
  counts as 0.
- A `null` entry inside `xposed_data` or inside a `children` list would
  throw in the source. The model has no such entry.
- `toLowerCase` is ASCII lower-casing. For the words the pages compare
  ("high", "medium", "low", "password") the result of the comparison is the
  same as with full Unicode lower-casing. The non-ASCII characters that lower
  to something with an ASCII letter are the Kelvin sign, which lowers to 'k',
  and the dotted capital I (U+0130), which lowers to 'i' followed by a
  combining dot. No comparison word contains 'k', and the combining dot keeps
  an 'i' made this way from matching, so the comparisons come out the same.
- The `console.log` calls in `prepareDataCategories` and the query functions
  are not modelled.
- Behaviours of the source a reader may not expect:
  - `formatNumber` uses `toFixed(1)`, so its rounding is that of binary
    floating point rather than half-up;
  - a sub-category whose `children` is missing or not an array still gets a
    row, with count 0;
  - of the four queries, only the domain query has a 404 branch;
  - the catalogue query has no 429 branch, so a rate-limited catalogue
    request shows the generic failure message;
  - `passwordRisk` is compared as a plain string with "unknown", without
    lower-casing.
- Catalogue.AnyMentionsPassword: the model takes `exposedData` to be a list.
  The source calls `breach.exposedData.some` without `?.`
  (src/pages/ExposedBreach.tsx:126), so a breach without `exposedData`
  throws there, unlike the guarded read at src/pages/ExposedBreach.tsx:376.
- BreachRisk.ItemLabel: the model takes a data type's `name` to be a string
  or missing. A `name` of another type, such as a number, has no `replace`
  method, so `level3.name?.replace` (src/pages/BreachRisk.tsx:196) throws.
- Severity.BadgeVariantOf: the model takes `severity` to be a string or
  missing. A severity of another type has no `toLowerCase` method, so
  `severity?.toLowerCase()` (src/pages/BreachRisk.tsx:100,
  src/pages/Index.tsx:159) throws.

## Findings

| source | as written | input that shows it | evidently intended | confidence | as-written member | corrected member |
|---|---|---|---|---|---|---|
| src/pages/ExposedBreach.tsx:416-418 | the ellipsis after the first-page link is shown whenever the current page is above 4 | 6 pages, current page 5: the window is pages 2 to 6, and the pager shows 1 … 2 3 4 5 6 | an ellipsis only where pages are hidden, i.e. when the window starts after page 2 | medium, not executed | `Pagination.AsWrittenMarksAGapThatIsNotThere` | `Pagination.PagerMarksExactlyTheGaps` |
| src/pages/ExposedBreach.tsx:443-445 | the ellipsis before the last-page link is shown whenever the current page is more than three below the last | 6 pages, current page 1: the window is pages 1 to 5, and the pager shows 1 2 3 4 5 … 6 | an ellipsis only when the window ends before the second-to-last page | medium, not executed | `Pagination.AsWrittenTrailingEllipsisHidesNothing` | `Pagination.PagerMarksExactlyTheGaps` |

=== FILE: breach_risk.dfy ===
/** The breach-analytics page: the category breakdown built from the
    `xposed_data` tree (`prepareDataCategories` with `categoryColors`), the
    bar-chart rows (`prepareChartData`). */
module BreachRisk {

  import opened Wrappers
  import opened Text
  import opened Sums
  import opened Keyed
  import opened Ranking

  // ---------------------------------------------------------------------------
  // The input tree

  /** A node of `xposed_data`: top nodes hold sub-categories, sub-categories
      hold leaves. `children` is None when the field is missing or not an
      array; `value` is None when it is missing or not a number. */
  datatype Node = Node(name: Option<string>, value: Option<int>, children: Option<seq<Node>>)

  const UnknownCategory := "Unknown Category"
  const UnknownItem := "Unknown"
  const DataPrefix := "data_"

  /** `level2.name || "Unknown Category"`: a missing or empty name falls back. */
  function CategoryLabel(sub: Node): (n: string)
    ensures n != ""
    ensures sub.name.Some? && sub.name.value != "" ==> n == sub.name.value
    ensures sub.name.None? || sub.name.value == "" ==> n == UnknownCategory
  {
    match sub.name
    case Some(s) => if s != "" then s else UnknownCategory
    case None => UnknownCategory
  }

  /** `name.replace(/^data_/, "")`: one leading "data_" is removed. */
  function StripDataPrefix(s: string): (r: string)
    ensures StartsWith(s, DataPrefix) ==> DataPrefix + r == s
    ensures !StartsWith(s, DataPrefix) ==> r == s
  {
    if StartsWith(s, DataPrefix) then s[|DataPrefix|..] else s
  }

  /** The item a leaf is counted under; a missing name, or one that is nothing
      but the prefix, becomes "Unknown". */
  function ItemLabel(leaf: Node): (l: string)
    ensures l != ""
    ensures leaf.name.Some? && StripDataPrefix(leaf.name.value) != "" ==>
              l == StripDataPrefix(leaf.name.value)
    ensures leaf.name.None? || StripDataPrefix(leaf.name.value) == "" ==> l == UnknownItem
  {
    match leaf.name
    case Some(s) => var t := StripDataPrefix(s); if t != "" then t else UnknownItem
    case None => UnknownItem
  }

  lemma ItemLabelExamples()
    ensures ItemLabel(Node(Some("data_email"), None, None)) == "email"
    ensures ItemLabel(Node(Some("data_data_x"), None, None)) == "data_x"
    ensures ItemLabel(Node(Some("data_"), None, None)) == UnknownItem
    ensures ItemLabel(Node(Some("password"), None, None)) == "password"
  {
    assert StartsWith("data_email", DataPrefix) && "data_email"[5..] == "email";
    assert StartsWith("data_data_x", DataPrefix) && "data_data_x"[5..] == "data_x";
    assert StartsWith("data_", DataPrefix) && "data_"[5..] == "";
    assert "password"[..5] == "passw";
  }

  /** `Number(level3.value) || 0`. */
  function LeafValue(leaf: Node): int
  {
    leaf.value.GetOr(0)
  }

  // ---------------------------------------------------------------------------
  // Reference totals, read directly off the tree

  function LeafTotal(leaves: seq<Node>): int { Sum(leaves, LeafValue) }

  /** Total of the leaves counted under `key`. */
  function LabelTotal(leaves: seq<Node>, key: string): int
  {
    if |leaves| == 0 then 0
    else (if ItemLabel(leaves[0]) == key then LeafValue(leaves[0]) else 0)
         + LabelTotal(leaves[1..], key)
  }

  function Labels(leaves: seq<Node>): set<string>
  {
    if |leaves| == 0 then {} else {ItemLabel(leaves[0])} + Labels(leaves[1..])
  }

  /** What a sub-category contributes: nothing when its children are not an array. */
  function SubTotal(sub: Node): int
  {
    match sub.children
    case Some(leaves) => LeafTotal(leaves)
    case None => 0
  }

  function SubLabelTotal(sub: Node, key: string): int
  {
    match sub.children
    case Some(leaves) => LabelTotal(leaves, key)
    case None => 0
  }

  function SubLabels(sub: Node): set<string>
  {
    match sub.children
    case Some(leaves) => Labels(leaves)
    case None => {}
  }

  /** Total of the sub-categories labelled `name`. */
  function NamedTotal(subs: seq<Node>, name: string): int
  {
    if |subs| == 0 then 0
    else (if CategoryLabel(subs[0]) == name then SubTotal(subs[0]) else 0)
         + NamedTotal(subs[1..], name)
  }

  /** Total of the leaves labelled `key` under sub-categories labelled `name`. */
  function NamedLabelTotal(subs: seq<Node>, name: string, key: string): int
  {
    if |subs| == 0 then 0
    else (if CategoryLabel(subs[0]) == name then SubLabelTotal(subs[0], key) else 0)
         + NamedLabelTotal(subs[1..], name, key)
  }

  /** Item labels found under sub-categories labelled `name`. */
  function NamedLabels(subs: seq<Node>, name: string): set<string>
  {
    if |subs| == 0 then {}
    else (if CategoryLabel(subs[0]) == name then SubLabels(subs[0]) else {})
         + NamedLabels(subs[1..], name)
  }

  function SubNames(subs: seq<Node>): set<string>
  {
    if |subs| == 0 then {} else {CategoryLabel(subs[0])} + SubNames(subs[1..])
  }

  /** The sub-categories reachable through top nodes whose children are an array, in order. */
  function Subcategories(tops: seq<Node>): seq<Node>
  {
    if |tops| == 0 then []
    else
      (match tops[0].children case Some(subs) => subs case None => [])
      + Subcategories(tops[1..])
  }

  function TopTotal(top: Node): int
  {
    match top.children
    case Some(subs) => Sum(subs, SubTotal)
    case None => 0
  }

  /** Sum of every depth-3 leaf value reachable through array `children`. */
  function TreeTotal(tops: seq<Node>): int { Sum(tops, TopTotal) }

  // ---------------------------------------------------------------------------
  // The accumulator: categories and their items, in insertion order

  datatype Item = Item(name: string, count: int)
  datatype Category = Category(name: string, count: int, items: seq<Item>)

  function ItemName(i: Item): string { i.name }
  function ItemCount(i: Item): int { i.count }
  function CategoryName(c: Category): string { c.name }
  function CategoryCount(c: Category): int { c.count }

  /** `items.get(key) || 0`. */
  function CountOf(items: seq<Item>, key: string): int
  {
    var k := IndexOfName(items, ItemName, key);
    if k < |items| then items[k].count else 0
  }

  /** A category's count is the sum of its items, and no item name repeats. */
  ghost predicate WellFormed(c: Category)
  {
    DistinctBy(c.items, ItemName) && c.count == Sum(c.items, ItemCount)
  }

  /** One leaf: `items.set(key, (items.get(key) || 0) + value)` and
      `count += value`. */
  function AddLeaf(cat: Category, leaf: Node): (r: Category)
    ensures r.name == cat.name
    ensures r.count == cat.count + LeafValue(leaf)
    ensures forall l :: CountOf(r.items, l) ==
              CountOf(cat.items, l) + (if l == ItemLabel(leaf) then LeafValue(leaf) else 0)
    ensures NamesOf(r.items, ItemName) == NamesOf(cat.items, ItemName) + {ItemLabel(leaf)}
    ensures WellFormed(cat) ==> WellFormed(r)
    ensures NameOrder(r.items, ItemName) ==
              if ItemLabel(leaf) in NameOrder(cat.items, ItemName) then NameOrder(cat.items, ItemName)
              else NameOrder(cat.items, ItemName) + [ItemLabel(leaf)]
  {
    var key := ItemLabel(leaf);
    var v := LeafValue(leaf);
    var k := IndexOfName(cat.items, ItemName, key);
    if k < |cat.items| then
      var x := Item(key, cat.items[k].count + v);
      var items := cat.items[k := x];
      IndexOfNameFacts(cat.items, k, x);
      NamesOfUpdate(cat.items, ItemName, k, x);
      NamesOfMembership(cat.items, ItemName, key);
      SumUpdate(cat.items, k, x, ItemCount);
      DistinctUpdate(cat.items, ItemName, k, x);
      assert NameOrder(cat.items, ItemName)[k] == key;
      assert NameOrder(items, ItemName) == NameOrder(cat.items, ItemName);
      Category(cat.name, cat.count + v, items)
    else
      var x := Item(key, v);
      var items := cat.items + [x];
      AppendCounts(cat.items, x);
      NamesOfAppend(cat.items, ItemName, x);
      SumAppend(cat.items, [x], ItemCount);
      DistinctAppend(cat.items, ItemName, x);
      assert key !in NameOrder(cat.items, ItemName);
      assert NameOrder(items, ItemName) == NameOrder(cat.items, ItemName) + [key];
      Category(cat.name, cat.count + v, items)
  }

  lemma IndexOfNameFacts(items: seq<Item>, k: nat, x: Item)
    requires k < |items| && x.name == items[k].name
    ensures forall l :: IndexOfName(items[k := x], ItemName, l) == IndexOfName(items, ItemName, l)
  {
    forall l ensures IndexOfName(items[k := x], ItemName, l) == IndexOfName(items, ItemName, l) {
      IndexOfNameUpdate(items, ItemName, k, x, l);
    }
  }

  lemma AppendCounts(items: seq<Item>, x: Item)
    requires IndexOfName(items, ItemName, x.name) == |items|
    ensures forall l :: CountOf(items + [x], l) ==
                        CountOf(items, l) + (if l == x.name then x.count else 0)
  {
    forall l ensures CountOf(items + [x], l) ==
                     CountOf(items, l) + (if l == x.name then x.count else 0) {
      IndexOfNameAppend(items, ItemName, x, l);
    }
  }

  /** The `forEach` over a sub-category's leaves. */
  function AddLeaves(cat: Category, leaves: seq<Node>): (r: Category)
    ensures r.name == cat.name
    ensures r.count == cat.count + LeafTotal(leaves)
    ensures forall l :: CountOf(r.items, l) == CountOf(cat.items, l) + LabelTotal(leaves, l)
    ensures NamesOf(r.items, ItemName) == NamesOf(cat.items, ItemName) + Labels(leaves)
    ensures WellFormed(cat) ==> WellFormed(r)
    decreases |leaves|
  {
    if |leaves| == 0 then cat
    else AddLeaves(AddLeaf(cat, leaves[0]), leaves[1..])
  }

  /** A sub-category's effect on its category: its leaves are added when its
      children are an array; otherwise the category is kept as it is. */
  function Tally(cat: Category, sub: Node): (r: Category)
    ensures r.name == cat.name
    ensures r.count == cat.count + SubTotal(sub)
    ensures forall l :: CountOf(r.items, l) == CountOf(cat.items, l) + SubLabelTotal(sub, l)
    ensures NamesOf(r.items, ItemName) == NamesOf(cat.items, ItemName) + SubLabels(sub)
    ensures WellFormed(cat) ==> WellFormed(r)
  {
    match sub.children
    case Some(leaves) => AddLeaves(cat, leaves)
    case None => cat
  }

  /** `categories.get(name) || { count: 0, items: new Map() }`. */
  function Existing(cats: seq<Category>, name: string): (c: Category)
    ensures c.name == name
    ensures name !in NamesOf(cats, CategoryName) ==> c == Category(name, 0, [])
  {
    NamesOfMembership(cats, CategoryName, name);
    var k := IndexOfName(cats, CategoryName, name);
    if k < |cats| then cats[k] else Category(name, 0, [])
  }

  /** For a name already present, `get` returns the stored category itself. */
  lemma ExistingIsStored(cats: seq<Category>, name: string)
    requires name in NamesOf(cats, CategoryName)
    ensures Existing(cats, name) in cats
  {
    NamesOfMembership(cats, CategoryName, name);
  }

  ghost predicate AllWellFormed(cats: seq<Category>)
  {
    forall i :: 0 <= i < |cats| ==> WellFormed(cats[i])
  }

  /** `categories.set(c.name, c)`: replaces the entry in place when the name is
      present and appends otherwise. */
  function Store(cats: seq<Category>, c: Category): (r: seq<Category>)
    ensures forall n :: Existing(r, n) == if n == c.name then c else Existing(cats, n)
    ensures NamesOf(r, CategoryName) == NamesOf(cats, CategoryName) + {c.name}
    ensures DistinctBy(cats, CategoryName) ==> DistinctBy(r, CategoryName)
    ensures AllWellFormed(cats) && WellFormed(c) ==> AllWellFormed(r)
    ensures Sum(r, CategoryCount) == Sum(cats, CategoryCount) - Existing(cats, c.name).count + c.count
  {
    var k := IndexOfName(cats, CategoryName, c.name);
    if k < |cats| then
      StoreUpdateFacts(cats, k, c);
      cats[k := c]
    else
      StoreAppendFacts(cats, c);
      cats + [c]
  }

  lemma StoreUpdateFacts(cats: seq<Category>, k: nat, c: Category)
    requires k < |cats| && k == IndexOfName(cats, CategoryName, c.name)
    ensures forall n :: Existing(cats[k := c], n) == if n == c.name then c else Existing(cats, n)
    ensures NamesOf(cats[k := c], CategoryName) == NamesOf(cats, CategoryName) + {c.name}
    ensures DistinctBy(cats, CategoryName) ==> DistinctBy(cats[k := c], CategoryName)
    ensures Sum(cats[k := c], CategoryCount) == Sum(cats, CategoryCount) - cats[k].count + c.count
  {
    forall n ensures Existing(cats[k := c], n) == if n == c.name then c else Existing(cats, n) {
      IndexOfNameUpdate(cats, CategoryName, k, c, n);
    }
    NamesOfUpdate(cats, CategoryName, k, c);
    NamesOfContains(cats, CategoryName, k);
    DistinctUpdate(cats, CategoryName, k, c);
    SumUpdate(cats, k, c, CategoryCount);
  }

  lemma StoreAppendFacts(cats: seq<Category>, c: Category)
    requires IndexOfName(cats, CategoryName, c.name) == |cats|
    ensures forall n :: Existing(cats + [c], n) == if n == c.name then c else Existing(cats, n)
    ensures NamesOf(cats + [c], CategoryName) == NamesOf(cats, CategoryName) + {c.name}
    ensures DistinctBy(cats, CategoryName) ==> DistinctBy(cats + [c], CategoryName)
    ensures Sum(cats + [c], CategoryCount) == Sum(cats, CategoryCount) + c.count
  {
    forall n ensures Existing(cats + [c], n) == if n == c.name then c else Existing(cats, n) {
      IndexOfNameAppend(cats, CategoryName, c, n);
    }
    NamesOfAppend(cats, CategoryName, c);
    DistinctAppend(cats, CategoryName, c);
    SumAppend(cats, [c], CategoryCount);
  }

  /** One sub-category (the body of the inner `forEach`): its category is looked
      up or created, its leaves are tallied, and the category is stored back. */
  function AddSub(cats: seq<Category>, sub: Node): (r: seq<Category>)
    ensures forall n :: Existing(r, n) ==
              if n == CategoryLabel(sub) then Tally(Existing(cats, n), sub) else Existing(cats, n)
    ensures NamesOf(r, CategoryName) == NamesOf(cats, CategoryName) + {CategoryLabel(sub)}
    ensures DistinctBy(cats, CategoryName) ==> DistinctBy(r, CategoryName)
    ensures AllWellFormed(cats) ==> AllWellFormed(r)
    ensures Sum(r, CategoryCount) == Sum(cats, CategoryCount) + SubTotal(sub)
  {
    var name := CategoryLabel(sub);
    var base := Existing(cats, name);
    assert AllWellFormed(cats) ==> WellFormed(base) by {
      if AllWellFormed(cats) && IndexOfName(cats, CategoryName, name) == |cats| {
        assert base == Category(name, 0, []);
      }
    }
    Store(cats, Tally(base, sub))
  }

  /** The `forEach` over a run of sub-categories: every category's count, item
      counts and item names grow by exactly what the sub-categories with its
      label contribute. */
  function CollectSubs(cats: seq<Category>, subs: seq<Node>): (r: seq<Category>)
    ensures forall n :: Existing(r, n).count == Existing(cats, n).count + NamedTotal(subs, n)
    ensures forall n, l :: CountOf(Existing(r, n).items, l) ==
              CountOf(Existing(cats, n).items, l) + NamedLabelTotal(subs, n, l)
    ensures forall n :: NamesOf(Existing(r, n).items, ItemName) ==
              NamesOf(Existing(cats, n).items, ItemName) + NamedLabels(subs, n)
    ensures NamesOf(r, CategoryName) == NamesOf(cats, CategoryName) + SubNames(subs)
    ensures DistinctBy(cats, CategoryName) ==> DistinctBy(r, CategoryName)
    ensures AllWellFormed(cats) ==> AllWellFormed(r)
    ensures Sum(r, CategoryCount) == Sum(cats, CategoryCount) + Sum(subs, SubTotal)
    decreases |subs|
  {
    if |subs| == 0 then cats
    else CollectSubs(AddSub(cats, subs[0]), subs[1..])
  }

  /** The outer `forEach`: a top node contributes its sub-categories when its
      children are an array, and nothing otherwise. */
  function CollectTops(cats: seq<Category>, tops: seq<Node>): seq<Category>
    decreases |tops|
  {
    if |tops| == 0 then cats
    else
      var next := match tops[0].children
        case Some(subs) => CollectSubs(cats, subs)
        case None => cats;
      CollectTops(next, tops[1..])
  }

  lemma {:induction false} CollectSubsAppend(cats: seq<Category>, a: seq<Node>, b: seq<Node>)
    ensures CollectSubs(cats, a + b) == CollectSubs(CollectSubs(cats, a), b)
    decreases |a|
  {
    if |a| == 0 {
      assert a + b == b;
    } else {
      assert (a + b)[0] == a[0] && (a + b)[1..] == a[1..] + b;
      CollectSubsAppend(AddSub(cats, a[0]), a[1..], b);
    }
  }

  /** Walking the tree level by level is walking its flattened list of sub-categories. */
  lemma {:induction false} CollectTopsFlattens(cats: seq<Category>, tops: seq<Node>)
    ensures CollectTops(cats, tops) == CollectSubs(cats, Subcategories(tops))
    decreases |tops|
  {
    if |tops| > 0 {
      var first := match tops[0].children case Some(subs) => subs case None => [];
      CollectSubsAppend(cats, first, Subcategories(tops[1..]));
      CollectTopsFlattens(CollectSubs(cats, first), tops[1..]);
    }
  }

  lemma {:induction false} SubcategoriesTotal(tops: seq<Node>)
    ensures Sum(Subcategories(tops), SubTotal) == TreeTotal(tops)
  {
    if |tops| > 0 {
      var first := match tops[0].children case Some(subs) => subs case None => [];
      SumAppend(first, Subcategories(tops[1..]), SubTotal);
      SubcategoriesTotal(tops[1..]);
    }
  }

  // ---------------------------------------------------------------------------
  // The category breakdown as displayed

  const DefaultColor := "#CCCCCC"

  /** The five categories `categoryColors` knows by name. */
  const Communication := "\U{1F4DE} Communication and Social Interactions"
  const Identification := "\U{1F464} Personal Identification"
  const Security := "\U{1F512} Security Practices"
  const Demographics := "\U{1F465} Demographics"
  const Devices := "\U{1F5A5}\U{FE0F} Device and Network Information"
  const KnownCategories := {Communication, Identification, Security, Demographics, Devices}

  /** The keys a plain object literal inherits from `Object.prototype`. Looking
      one of them up in `categoryColors` yields that inherited member, which is
      truthy, so the fallback grey is not used. */
  const InheritedKeys := {
    "constructor", "hasOwnProperty", "isPrototypeOf", "propertyIsEnumerable",
    "toLocaleString", "toString", "valueOf", "__proto__",
    "__defineGetter__", "__defineSetter__", "__lookupGetter__", "__lookupSetter__"}

  /** What the `color` field of a category receives. */
  datatype Colour = Hex(code: string) | InheritedMember(key: string)

  /** `categoryColors[category] || "#CCCCCC"`. */
  function CategoryColor(name: string): (color: Colour)
    ensures name in KnownCategories ==> color.Hex? && color.code != DefaultColor
    ensures name in InheritedKeys ==> color == InheritedMember(name)
    ensures name !in KnownCategories && name !in InheritedKeys ==> color == Hex(DefaultColor)
  {
    if name == Communication then Hex("#4CAF50")
    else if name == Identification then Hex("#2196F3")
    else if name == Security then Hex("#F44336")
    else if name == Demographics then Hex("#FF9800")
    else if name == Devices then Hex("#9C27B0")
    else if name in InheritedKeys then InheritedMember(name)
    else Hex(DefaultColor)
  }

  /** The five known categories have five different colours, and "Unknown
      Category" gets the fallback grey. */
  lemma KnownColorsAreDistinct()
    ensures forall a, b :: a in KnownCategories && b in KnownCategories && a != b ==>
              CategoryColor(a) != CategoryColor(b)
    ensures CategoryColor(UnknownCategory) == Hex(DefaultColor)
  {
    assert "#4CAF50"[1] == '4' && "#2196F3"[1] == '2' && "#F44336"[1] == 'F' && "#FF9800"[1] == 'F' && "#9C27B0"[1] == '9';
    assert "#F44336"[2] == '4' && "#FF9800"[2] == 'F';
    assert Communication[0] == '\U{1F4DE}' && Identification[0] == '\U{1F464}' && Security[0] == '\U{1F512}';
    assert Demographics[0] == '\U{1F465}' && Devices[0] == '\U{1F5A5}';
    assert UnknownCategory[0] == 'U';
    assert UnknownCategory !in InheritedKeys;
  }

  datatype CategoryRow = CategoryRow(category: string, count: int, color: Colour, items: seq<Item>)

  function RowCount(r: CategoryRow): int { r.count }
  function RowName(r: CategoryRow): string { r.category }

  function Present(c: Category): CategoryRow
  {
    CategoryRow(c.name, c.count, CategoryColor(c.name), c.items)
  }

  /** `Array.from(categories.entries()).map(...)`, in insertion order. */
  function Rows(cats: seq<Category>): (rows: seq<CategoryRow>)
    ensures |rows| == |cats|
    ensures forall i :: 0 <= i < |cats| ==> rows[i] == Present(cats[i])
  {
    if |cats| == 0 then [] else [Present(cats[0])] + Rows(cats[1..])
  }

  /** The categories accumulated from the whole tree, before sorting. */
  function Collected(tops: seq<Node>): (cats: seq<Category>)
    ensures cats == CollectSubs([], Subcategories(tops))
  {
    CollectTopsFlattens([], tops);
    CollectTops([], tops)
  }

  /** `prepareDataCategories`: no `xposed_data` (or a non-array) gives no
      categories; otherwise the accumulated categories, largest count first. */
  function PrepareDataCategories(xposed: Option<seq<Node>>): (rows: seq<CategoryRow>)
    ensures xposed.None? ==> rows == []
    ensures NonIncreasing(rows, RowCount)
  {
    match xposed
    case None => []
    case Some(tops) => SortDesc(Rows(Collected(tops)), RowCount)
  }

  /** What the accumulation yields from an empty start, in terms of the tree. */
  lemma CollectedFacts(tops: seq<Node>)
    ensures var cats := Collected(tops);
            var subs := Subcategories(tops);
            && DistinctBy(cats, CategoryName)
            && AllWellFormed(cats)
            && NamesOf(cats, CategoryName) == SubNames(subs)
            && Sum(cats, CategoryCount) == TreeTotal(tops)
            && (forall n :: Existing(cats, n).count == NamedTotal(subs, n))
            && (forall n, l :: CountOf(Existing(cats, n).items, l) == NamedLabelTotal(subs, n, l))
            && (forall n :: NamesOf(Existing(cats, n).items, ItemName) == NamedLabels(subs, n))
  {
    CollectTopsFlattens([], tops);
    SubcategoriesTotal(tops);
    forall n ensures Existing([], n) == Category(n, 0, []) {}
  }

  lemma {:induction false} RowsSum(cats: seq<Category>)
    ensures Sum(Rows(cats), RowCount) == Sum(cats, CategoryCount)
  {
    if |cats| > 0 {
      RowsSum(cats[1..]);
      assert Rows(cats)[1..] == Rows(cats[1..]);
    }
  }

  lemma {:induction false} RowsNames(cats: seq<Category>)
    ensures NamesOf(Rows(cats), RowName) == NamesOf(cats, CategoryName)
  {
    if |cats| > 0 {
      RowsNames(cats[1..]);
      assert Rows(cats)[1..] == Rows(cats[1..]);
    }
  }

  /** The category counts add up to the sum of all leaf values in the tree. */
  lemma CategoryTotalsMatchTree(tops: seq<Node>)
    ensures Sum(PrepareDataCategories(Some(tops)), RowCount) == TreeTotal(tops)
  {
    var cats := Collected(tops);
    CollectedFacts(tops);
    RowsSum(cats);
    SortDescSum(Rows(cats), RowCount, RowCount);
  }

  /** No two rows share a category name. */
  lemma CategoryNamesUnique(tops: seq<Node>)
    ensures DistinctBy(PrepareDataCategories(Some(tops)), RowName)
  {
    var cats := Collected(tops);
    CollectedFacts(tops);
    assert DistinctBy(Rows(cats), RowName);
    SortDescKeepsDistinct(Rows(cats), RowCount, RowName);
  }

  /** Exactly the labels of the reachable sub-categories appear as rows, so no
      category is dropped, whatever its name. */
  lemma CategoryNamesExact(tops: seq<Node>)
    ensures NamesOf(PrepareDataCategories(Some(tops)), RowName) == SubNames(Subcategories(tops))
  {
    var cats := Collected(tops);
    CollectedFacts(tops);
    RowsNames(cats);
    NamesOfPermutation(PrepareDataCategories(Some(tops)), Rows(cats), RowName);
  }

  /** What the tree says about the row of a category: the total of the
      sub-categories with that label, the colour for that label, items with
      distinct names adding up to the count, and each item the total of the
      leaves with its label under those sub-categories. */
  ghost predicate RowAgreesWithTree(subs: seq<Node>, r: CategoryRow)
  {
    && r.count == NamedTotal(subs, r.category)
    && r.color == CategoryColor(r.category)
    && r.count == Sum(r.items, ItemCount)
    && DistinctBy(r.items, ItemName)
    && NamesOf(r.items, ItemName) == NamedLabels(subs, r.category)
    && (forall l :: CountOf(r.items, l) == NamedLabelTotal(subs, r.category, l))
    && (forall j :: 0 <= j < |r.items| ==>
          r.items[j].count == NamedLabelTotal(subs, r.category, r.items[j].name))
  }

  /** Sorting only reorders: each sorted row presents one accumulated category. */
  lemma SortedRowSource(cats: seq<Category>, r: CategoryRow) returns (i: nat)
    requires r in SortDesc(Rows(cats), RowCount)
    ensures i < |cats| && r == Present(cats[i])
  {
    assert r in multiset(Rows(cats));
    i :| i < |cats| && Rows(cats)[i] == r;
  }

  /** Every row holds what the tree says about its category. */
  lemma CategoryRowsMatchTree(tops: seq<Node>)
    ensures forall r :: r in PrepareDataCategories(Some(tops)) ==>
              RowAgreesWithTree(Subcategories(tops), r)
  {
    var cats := Collected(tops);
    forall r | r in PrepareDataCategories(Some(tops))
      ensures RowAgreesWithTree(Subcategories(tops), r)
    {
      var i := SortedRowSource(cats, r);
      RowMatchesTree(tops, i);
    }
  }

  /** The `i`-th accumulated category, as displayed, agrees with the tree. */
  lemma RowMatchesTree(tops: seq<Node>, i: nat)
    requires i < |Collected(tops)|
    ensures RowAgreesWithTree(Subcategories(tops), Present(Collected(tops)[i]))
  {
    var cats := Collected(tops);
    CollectedFacts(tops);
    RowOfDistinctCategories(cats, i);
    assert WellFormed(cats[i]);
  }

  /** A row shows the category that lookup by its name finds, and each of its
      data types with that type's count. */
  lemma RowOfDistinctCategories(cats: seq<Category>, i: nat)
    requires DistinctBy(cats, CategoryName) && AllWellFormed(cats)
    requires i < |cats|
    ensures var r := Present(cats[i]);
            && Existing(cats, r.category) == Category(r.category, r.count, r.items)
            && forall j :: 0 <= j < |r.items| ==> r.items[j].count == CountOf(r.items, r.items[j].name)
  {
    IndexOfDistinct(cats, CategoryName, i);
    var items := cats[i].items;
    assert WellFormed(cats[i]);
    forall j | 0 <= j < |items| ensures items[j].count == CountOf(items, items[j].name) {
      IndexOfDistinct(items, ItemName, j);
    }
  }

  /** Among rows with equal counts, the order is the accumulation order. */
  lemma TiesKeepAccumulationOrder(tops: seq<Node>, k: int)
    ensures WithKey(PrepareDataCategories(Some(tops)), RowCount, k) ==
            WithKey(Rows(Collected(tops)), RowCount, k)
  {
    SortDescIsStable(Rows(Collected(tops)), RowCount, k);
  }


  /** The distinct names of `names` appended to `seen` in order of first appearance. */
  function FirstSeen(seen: seq<string>, names: seq<string>): seq<string>
    decreases |names|
  {
    if |names| == 0 then seen
    else FirstSeen(if names[0] in seen then seen else seen + [names[0]], names[1..])
  }

  function LabelOrder(subs: seq<Node>): (names: seq<string>)
    ensures |names| == |subs|
    ensures forall i :: 0 <= i < |subs| ==> names[i] == CategoryLabel(subs[i])
  {
    seq(|subs|, i requires 0 <= i < |subs| => CategoryLabel(subs[i]))
  }

  lemma StoreOrder(cats: seq<Category>, c: Category)
    ensures NameOrder(Store(cats, c), CategoryName) ==
            if c.name in NameOrder(cats, CategoryName) then NameOrder(cats, CategoryName)
            else NameOrder(cats, CategoryName) + [c.name]
  {
    var k := IndexOfName(cats, CategoryName, c.name);
    if k < |cats| {
      assert NameOrder(cats, CategoryName)[k] == c.name;
      assert NameOrder(cats[k := c], CategoryName) == NameOrder(cats, CategoryName);
    } else {
      assert c.name !in NameOrder(cats, CategoryName);
      assert NameOrder(cats + [c], CategoryName) == NameOrder(cats, CategoryName) + [c.name];
    }
  }

  lemma AddSubOrder(cats: seq<Category>, sub: Node)
    ensures var name := CategoryLabel(sub);
            NameOrder(AddSub(cats, sub), CategoryName) ==
            if name in NameOrder(cats, CategoryName) then NameOrder(cats, CategoryName)
            else NameOrder(cats, CategoryName) + [name]
  {
    var name := CategoryLabel(sub);
    StoreOrder(cats, Tally(Existing(cats, name), sub));
  }

  lemma {:induction false} CollectSubsOrder(cats: seq<Category>, subs: seq<Node>)
    ensures NameOrder(CollectSubs(cats, subs), CategoryName) ==
            FirstSeen(NameOrder(cats, CategoryName), LabelOrder(subs))
    decreases |subs|
  {
    if |subs| > 0 {
      var next := AddSub(cats, subs[0]);
      AddSubOrder(cats, subs[0]);
      CollectSubsOrder(next, subs[1..]);
      var labels := LabelOrder(subs);
      assert labels[0] == CategoryLabel(subs[0]) && labels[1..] == LabelOrder(subs[1..]);
      assert FirstSeen(NameOrder(cats, CategoryName), labels) == FirstSeen(NameOrder(next, CategoryName), labels[1..]);
      assert LabelOrder(subs)[1..] == LabelOrder(subs[1..]);
    }
  }

  /** Before sorting, categories stand in the order their labels are first met
      in a depth-first walk; sorting keeps that order among equal counts. */
  lemma AccumulationOrderIsFirstSeen(tops: seq<Node>)
    ensures NameOrder(Collected(tops), CategoryName) == FirstSeen([], LabelOrder(Subcategories(tops)))
  {
    CollectTopsFlattens([], tops);
    CollectSubsOrder([], Subcategories(tops));
    assert NameOrder([], CategoryName) == [];
  }

  /** The labels of a run of data types, as they are met. */
  function LeafOrder(leaves: seq<Node>): (names: seq<string>)
    ensures |names| == |leaves|
    ensures forall i :: 0 <= i < |leaves| ==> names[i] == ItemLabel(leaves[i])
  {
    seq(|leaves|, i requires 0 <= i < |leaves| => ItemLabel(leaves[i]))
  }

  function SubLeafOrder(sub: Node): seq<string>
  {
    match sub.children
    case Some(leaves) => LeafOrder(leaves)
    case None => []
  }

  /** The labels met under the sub-categories named `name`, in tree order. */
  function NamedLeafOrder(subs: seq<Node>, name: string): seq<string>
  {
    if |subs| == 0 then []
    else (if CategoryLabel(subs[0]) == name then SubLeafOrder(subs[0]) else [])
         + NamedLeafOrder(subs[1..], name)
  }

  lemma {:induction false} FirstSeenAppend(seen: seq<string>, a: seq<string>, b: seq<string>)
    ensures FirstSeen(seen, a + b) == FirstSeen(FirstSeen(seen, a), b)
    decreases |a|
  {
    if |a| == 0 {
      assert a + b == b;
    } else {
      assert (a + b)[0] == a[0] && (a + b)[1..] == a[1..] + b;
      FirstSeenAppend(if a[0] in seen then seen else seen + [a[0]], a[1..], b);
    }
  }

  /** A category's children add their labels to its item order the first time
      each label is met. */
  lemma {:induction false} AddLeavesOrder(cat: Category, leaves: seq<Node>)
    ensures NameOrder(AddLeaves(cat, leaves).items, ItemName) ==
            FirstSeen(NameOrder(cat.items, ItemName), LeafOrder(leaves))
    decreases |leaves|
  {
    if |leaves| > 0 {
      AddLeavesOrder(AddLeaf(cat, leaves[0]), leaves[1..]);
      assert LeafOrder(leaves)[1..] == LeafOrder(leaves[1..]);
    }
  }

  /** One sub-category adds its labels to the item order of its own name and
      leaves every other name's item order alone. */
  lemma AddSubItemOrder(cats: seq<Category>, sub: Node, name: string)
    ensures NameOrder(Existing(AddSub(cats, sub), name).items, ItemName) ==
            FirstSeen(NameOrder(Existing(cats, name).items, ItemName),
                      if CategoryLabel(sub) == name then SubLeafOrder(sub) else [])
  {
    if CategoryLabel(sub) == name && sub.children.Some? {
      AddLeavesOrder(Existing(cats, name), sub.children.value);
    }
  }

  /** Item order after a run of sub-categories: the earlier order of the name,
      followed by the labels first met under the sub-categories of that name. */
  lemma {:induction false} CollectSubsItemOrder(cats: seq<Category>, subs: seq<Node>, name: string)
    ensures NameOrder(Existing(CollectSubs(cats, subs), name).items, ItemName) ==
            FirstSeen(NameOrder(Existing(cats, name).items, ItemName), NamedLeafOrder(subs, name))
    decreases |subs|
  {
    if |subs| > 0 {
      var next := AddSub(cats, subs[0]);
      var here := if CategoryLabel(subs[0]) == name then SubLeafOrder(subs[0]) else [];
      AddSubItemOrder(cats, subs[0], name);
      CollectSubsItemOrder(next, subs[1..], name);
      FirstSeenAppend(NameOrder(Existing(cats, name).items, ItemName), here, NamedLeafOrder(subs[1..], name));
      assert NamedLeafOrder(subs, name) == here + NamedLeafOrder(subs[1..], name);
    }
  }

  lemma CollectedDistinct(tops: seq<Node>)
    ensures DistinctBy(Collected(tops), CategoryName)
  {
    assert DistinctBy([], CategoryName);
  }

  lemma RowItemOrder(tops: seq<Node>, i: nat)
    requires i < |Collected(tops)|
    ensures var c := Collected(tops)[i];
            NameOrder(c.items, ItemName) == FirstSeen([], NamedLeafOrder(Subcategories(tops), c.name))
  {
    var cats := Collected(tops);
    CollectedDistinct(tops);
    IndexOfDistinct(cats, CategoryName, i);
    assert Existing(cats, cats[i].name) == cats[i];
    CollectSubsItemOrder([], Subcategories(tops), cats[i].name);
    assert NameOrder(Existing([], cats[i].name).items, ItemName) == [];
  }

  /** Within each row, the data types appear in the order they are first met
      under the sub-categories of that row's name. */
  lemma ItemsInFirstSeenOrder(tops: seq<Node>)
    ensures forall r :: r in PrepareDataCategories(Some(tops)) ==>
              NameOrder(r.items, ItemName) == FirstSeen([], NamedLeafOrder(Subcategories(tops), r.category))
  {
    var cats := Collected(tops);
    forall r | r in PrepareDataCategories(Some(tops))
      ensures NameOrder(r.items, ItemName) == FirstSeen([], NamedLeafOrder(Subcategories(tops), r.category))
    {
      var i := SortedRowSource(cats, r);
      RowItemOrder(tops, i);
    }
  }



  lemma {:induction false} SubcategoriesAppend(a: seq<Node>, b: seq<Node>)
    ensures Subcategories(a + b) == Subcategories(a) + Subcategories(b)
  {
    if |a| == 0 {
      assert a + b == b;
    } else {
      assert (a + b)[0] == a[0] && (a + b)[1..] == a[1..] + b;
      SubcategoriesAppend(a[1..], b);
    }
  }

  /** A top node whose `children` is missing or not an array changes nothing. */
  lemma ChildlessTopContributesNothing(a: seq<Node>, t: Node, b: seq<Node>)
    requires t.children.None?
    ensures PrepareDataCategories(Some(a + [t] + b)) == PrepareDataCategories(Some(a + b))
  {
    var withT := a + [t] + b;
    var without := a + b;
    SubcategoriesAppend(a + [t], b);
    SubcategoriesAppend(a, [t]);
    SubcategoriesAppend(a, b);
    assert Subcategories([t]) == [];
    assert Subcategories(withT) == Subcategories(without);
    CollectTopsFlattens([], withT);
    CollectTopsFlattens([], without);
    assert Collected(withT) == Collected(without);
  }

  lemma {:induction false} SubNamesContains(subs: seq<Node>, i: nat)
    requires i < |subs|
    ensures CategoryLabel(subs[i]) in SubNames(subs)
  {
    if i > 0 {
      SubNamesContains(subs[1..], i - 1);
    }
  }

  lemma {:induction false} ChildlessLabelIsEmpty(subs: seq<Node>, name: string)
    requires forall j :: 0 <= j < |subs| && CategoryLabel(subs[j]) == name ==> subs[j].children.None?
    ensures NamedTotal(subs, name) == 0
    ensures NamedLabels(subs, name) == {}
  {
    if |subs| > 0 {
      ChildlessLabelIsEmpty(subs[1..], name);
    }
  }

  /** A sub-category without an array of children still gets its row, with
      count 0 and no items, unless another sub-category with the same label has leaves. */
  lemma ChildlessSubcategoryShownEmpty(tops: seq<Node>, i: nat)
    requires i < |Subcategories(tops)|
    requires forall j :: (0 <= j < |Subcategories(tops)| &&
               CategoryLabel(Subcategories(tops)[j]) == CategoryLabel(Subcategories(tops)[i])) ==>
               Subcategories(tops)[j].children.None?
    ensures exists r :: r in PrepareDataCategories(Some(tops)) &&
              r.category == CategoryLabel(Subcategories(tops)[i]) && r.count == 0 && r.items == []
  {
    var subs := Subcategories(tops);
    var name := CategoryLabel(subs[i]);
    var rows := PrepareDataCategories(Some(tops));
    SubNamesContains(subs, i);
    ChildlessLabelIsEmpty(subs, name);
    CategoryNamesExact(tops);
    NamesOfElements(rows, RowName, name);
    var r :| r in rows && r.category == name;
    CategoryRowsMatchTree(tops);
  }

  // ---------------------------------------------------------------------------
  // The bar chart

  /** One entry of `breaches_details`, as far as the chart reads it. */
  datatype BreachDetail = BreachDetail(breach: Option<string>, records: Option<int>, date: Option<string>)

  /** The year axis: `new Date(xposed_date).getFullYear()` of a present date,
      kept unevaluated, or "Unknown". */
  datatype ChartYear = YearOf(date: string) | UnknownYear

  datatype ChartEntry = ChartEntry(name: string, records: int, year: ChartYear)

  const MaxChartEntries := 10

  /** The chart's name for a breach without one. */
  const UnknownBreach := "Unknown"

  function ChartEntryOf(d: BreachDetail): (e: ChartEntry)
    ensures e.name != ""
    ensures d.breach.Some? && d.breach.value != "" ==> e.name == d.breach.value
    ensures d.records.Some? ==> e.records == d.records.value
    ensures d.records.None? ==> e.records == 0
    ensures d.breach.None? || d.breach.value == "" ==> e.name == UnknownBreach
    ensures e.year.YearOf? <==> d.date.Some? && d.date.value != ""
  {
    var name := match d.breach
      case Some(b) => if b != "" then b else UnknownBreach
      case None => UnknownBreach;
    var year := match d.date
      case Some(s) => if s != "" then YearOf(s) else UnknownYear
      case None => UnknownYear;
    ChartEntry(name, d.records.GetOr(0), year)
  }

  /** `prepareChartData`: the first ten entries of `breaches_details`, in order,
      each with its defaults filled in; nothing when the field is missing. */
  function PrepareChartData(details: Option<seq<BreachDetail>>): (r: seq<ChartEntry>)
    ensures |r| <= MaxChartEntries
    ensures details.None? ==> r == []
    ensures details.Some? ==>
              |r| == (if |details.value| < MaxChartEntries then |details.value| else MaxChartEntries)
    ensures details.Some? ==> forall i :: 0 <= i < |r| ==> r[i] == ChartEntryOf(details.value[i])
  {
    match details
    case None => []
    case Some(ds) =>
      var n := if |ds| < MaxChartEntries then |ds| else MaxChartEntries;
      seq(n, i requires 0 <= i < n => ChartEntryOf(ds[i]))
  }

  /** Entries after the tenth never reach the chart. */
  lemma ChartIgnoresLaterEntries(ds: seq<BreachDetail>, more: seq<BreachDetail>)
    requires |ds| >= MaxChartEntries
    ensures PrepareChartData(Some(ds + more)) == PrepareChartData(Some(ds))
  {
    var a := PrepareChartData(Some(ds + more));
    var b := PrepareChartData(Some(ds));
    assert |a| == |b|;
    forall i | 0 <= i < |a| ensures a[i] == b[i] {
      assert (ds + more)[i] == ds[i];
    }
  }
}

=== FILE: catalogue.dfy ===
/** The exposed-breach page: the catalogue fetch, the newest-first ordering,
    the three summary figures, pagination and the number formatter. */
module Catalogue {

  import opened Wrappers
  import opened Text
  import opened Sums
  import opened Ranking
  import Errors

  /** `BreachData`, restricted to the fields the page computes with. The breach
      date is the time value `new Date(breachedDate).getTime()`, taken as given. */
  datatype Breach = Breach(
    id: string,
    date: int,
    exposedData: seq<string>,
    records: Option<int>,
    passwordRisk: string,
    verified: bool)

  const FetchFailed := "Failed to fetch breaches data"

  /** `fetchBreaches`: a failed status throws; otherwise `exposedBreaches` when
      it is an array and the empty list when it is missing or not an array. */
  function FetchBreaches(status: int, exposedBreaches: Option<seq<Breach>>): (r: Result<seq<Breach>>)
    ensures r.Success? <==> Errors.IsOk(status)
    ensures r.Success? && exposedBreaches.None? ==> r.value == []
    ensures r.Success? && exposedBreaches.Some? ==> r.value == exposedBreaches.value
    ensures r.Failure? ==>
              forall body :: Errors.QueryError(Errors.CatalogueQuery, status, body) == Some(r.error)
  {
    if !Errors.IsOk(status) then Failure(FetchFailed)
    else Success(exposedBreaches.GetOr([]))
  }

  // ---------------------------------------------------------------------------
  // Ordering and summary figures

  function BreachDate(b: Breach): int { b.date }

  /** `sortedBreaches`: a sorted copy, newest first; nothing before data arrives. */
  function SortedBreaches(breaches: Option<seq<Breach>>): (r: seq<Breach>)
    ensures multiset(r) == multiset(breaches.GetOr([]))
    ensures NonIncreasing(r, BreachDate)
  {
    SortDesc(breaches.GetOr([]), BreachDate)
  }

  /** Breaches with the same date keep their order from the response. */
  lemma SameDateKeepsResponseOrder(breaches: seq<Breach>, date: int)
    ensures WithKey(SortedBreaches(Some(breaches)), BreachDate, date) ==
            WithKey(breaches, BreachDate, date)
  {
    SortDescIsStable(breaches, BreachDate, date);
  }

  lemma NewestFirstExample()
    ensures var older := Breach("a", 20210101, [], None, "low", true);
            var newer := Breach("b", 20230615, [], None, "low", true);
            SortedBreaches(Some([older, newer])) == [newer, older]
  {
  }

  /** `breach.exposedRecords || 0`. */
  function RecordsOf(b: Breach): int { b.records.GetOr(0) }

  /** `totalAffectedAccounts`. */
  function TotalAffectedAccounts(bs: seq<Breach>): (total: int)
    ensures (forall i :: 0 <= i < |bs| ==> RecordsOf(bs[i]) >= 0) ==>
              0 <= total && forall i :: 0 <= i < |bs| ==> RecordsOf(bs[i]) <= total
  {
    SumDominatesTerms(bs, RecordsOf);
    Sum(bs, RecordsOf)
  }

  /** `sortedBreaches.filter((breach) => breach.verified)`. */
  function Verified(bs: seq<Breach>): (r: seq<Breach>)
    ensures |r| <= |bs|
    ensures forall b :: b in r <==> b in bs && b.verified
  {
    if |bs| == 0 then []
    else (if bs[0].verified then [bs[0]] else []) + Verified(bs[1..])
  }

  /** `verifiedBreaches`: it equals the number of breaches exactly when all are
      verified, and is 0 exactly when none is. */
  function VerifiedBreaches(bs: seq<Breach>): (n: nat)
    ensures n <= |bs|
    ensures n == |bs| <==> forall i :: 0 <= i < |bs| ==> bs[i].verified
    ensures n == 0 <==> forall i :: 0 <= i < |bs| ==> !bs[i].verified
  {
    VerifiedLength(bs);
    |Verified(bs)|
  }

  function VerifiedWeight(b: Breach): int { if b.verified then 1 else 0 }

  lemma {:induction false} VerifiedCountIsSum(bs: seq<Breach>)
    ensures VerifiedBreaches(bs) == Sum(bs, VerifiedWeight)
  {
    if |bs| > 0 {
      VerifiedCountIsSum(bs[1..]);
    }
  }

  lemma {:induction false} VerifiedLength(bs: seq<Breach>)
    ensures |Verified(bs)| <= |bs|
    ensures |Verified(bs)| == |bs| <==> forall i :: 0 <= i < |bs| ==> bs[i].verified
    ensures |Verified(bs)| == 0 <==> forall i :: 0 <= i < |bs| ==> !bs[i].verified
  {
    if |bs| > 0 {
      VerifiedLength(bs[1..]);
      assert forall i :: 0 < i < |bs| ==> bs[i] == bs[1..][i - 1];
    }
  }

  const PasswordWord := "password"
  const UnknownRisk := "unknown"

  /** Some exposed data type mentions "password" in any letter case. */
  predicate MentionsPassword(exposedData: seq<string>)
  {
    exists i :: 0 <= i < |exposedData| && Contains(Lower(exposedData[i]), PasswordWord)
  }

  /** The `some(...)` test of `exposedPasswords`. */
  predicate ExposesPasswords(b: Breach)
  {
    MentionsPassword(b.exposedData) && b.passwordRisk != UnknownRisk
  }

  function PasswordRecords(b: Breach): (n: int)
    ensures n == (if ExposesPasswords(b) then RecordsOf(b) else 0)
  {
    if b.passwordRisk != UnknownRisk && AnyMentionsPassword(b.exposedData) then RecordsOf(b) else 0
  }

  /** The search the page runs, one data type after another. */
  function AnyMentionsPassword(exposedData: seq<string>): (found: bool)
    ensures found <==> MentionsPassword(exposedData)
  {
    if |exposedData| == 0 then false
    else if Contains(Lower(exposedData[0]), PasswordWord) then true
    else
      var rest := AnyMentionsPassword(exposedData[1..]);
      assert forall i :: 0 < i < |exposedData| ==> exposedData[i] == exposedData[1..][i - 1];
      rest
  }

  /** `exposedPasswords`: with no negative record counts, a part of the
      affected accounts. */
  function ExposedPasswords(bs: seq<Breach>): (n: int)
    ensures (forall i :: 0 <= i < |bs| ==> RecordsOf(bs[i]) >= 0) ==>
              0 <= n <= TotalAffectedAccounts(bs)
  {
    PasswordSumBetween(bs);
    Sum(bs, PasswordRecords)
  }

  lemma PasswordSumBetween(bs: seq<Breach>)
    ensures (forall i :: 0 <= i < |bs| ==> RecordsOf(bs[i]) >= 0) ==>
              0 <= Sum(bs, PasswordRecords) <= Sum(bs, RecordsOf)
  {
    if forall i :: 0 <= i < |bs| ==> RecordsOf(bs[i]) >= 0 {
      SumMonotone(bs, PasswordRecords, RecordsOf);
      SumMonotone(bs, (b: Breach) => 0, PasswordRecords);
      ZeroSum(bs);
    }
  }

  lemma {:induction false} ZeroSum(bs: seq<Breach>)
    ensures Sum(bs, (b: Breach) => 0) == 0
  {
    if |bs| > 0 {
      ZeroSum(bs[1..]);
    }
  }

  /** Letter case does not matter for the password test. */
  lemma PasswordTestIgnoresCase(d: string)
    ensures MentionsPassword([d]) <==> MentionsPassword([Lower(d)])
  {
    LowerIdempotent(d);
    assert [d][0] == d && [Lower(d)][0] == Lower(d);
    if MentionsPassword([d]) {
      assert Contains(Lower([Lower(d)][0]), PasswordWord);
    }
    if MentionsPassword([Lower(d)]) {
      assert Contains(Lower([d][0]), PasswordWord);
    }
  }

  /** The figures are computed on the sorted copy and equal those of the response. */
  lemma FiguresIgnoreOrder(breaches: seq<Breach>)
    ensures var sorted := SortedBreaches(Some(breaches));
            && TotalAffectedAccounts(sorted) == TotalAffectedAccounts(breaches)
            && VerifiedBreaches(sorted) == VerifiedBreaches(breaches)
            && ExposedPasswords(sorted) == ExposedPasswords(breaches)
  {
    var sorted := SortedBreaches(Some(breaches));
    SortDescSum(breaches, BreachDate, RecordsOf);
    SortDescSum(breaches, BreachDate, PasswordRecords);
    SortDescSum(breaches, BreachDate, VerifiedWeight);
    VerifiedCountIsSum(breaches);
    VerifiedCountIsSum(sorted);
  }

  // ---------------------------------------------------------------------------
  // Number formatting

  /** The scale `formatNumber` abbreviates to, written with the letter K, M or B. */
  datatype Scale = Thousands | Millions | Billions

  function Unit(scale: Scale): nat
  {
    match scale
    case Thousands => 1_000
    case Millions => 1_000_000
    case Billions => 1_000_000_000
  }

  /** What `formatNumber` shows: the plain decimal numeral, or `n / unit` written
      with one decimal (`toFixed(1)`) followed by the scale's letter. */
  datatype Shown = Plain(text: string) | Scaled(amount: int, scale: Scale)

  /** `formatNumber`: the largest of billions, millions and thousands that the
      number reaches, and the plain numeral below a thousand. */
  function FormatNumber(n: int): (r: Shown)
    ensures r.Plain? <==> n < 1_000
    ensures r.Plain? ==> ParseInt(r.text) == Some(n)
    ensures r.Scaled? ==> r.amount == n && Unit(r.scale) <= n
    ensures r.Scaled? && r.scale != Billions ==> n < 1_000 * Unit(r.scale)
  {
    if n >= 1_000_000_000 then Scaled(n, Billions)
    else if n >= 1_000_000 then Scaled(n, Millions)
    else if n >= 1_000 then Scaled(n, Thousands)
    else
      IntToStringRoundTrip(n);
      Plain(IntToString(n))
  }

  /** The chosen scale is the largest one the number reaches. */
  lemma FormatNumberPicksLargestScale(n: int, scale: Scale)
    requires Unit(scale) <= n
    ensures FormatNumber(n).Scaled?
    ensures Unit(scale) <= Unit(FormatNumber(n).scale)
  {
  }

  /** A larger number never gets a smaller scale. */
  lemma FormatNumberScaleIsMonotone(a: int, b: int)
    requires 1_000 <= a <= b
    ensures Unit(FormatNumber(a).scale) <= Unit(FormatNumber(b).scale)
  {
  }
}

=== FILE: errors.dfy ===
/** What the pages do with a failed HTTP response: the message each query
    function throws, and the alert (`getRateLimitMessage`) that displays it. */
module Errors {

  import opened Wrappers
  import opened Text

  /** The four queries of the dashboard. */
  datatype Query =
    | EmailQuery      // check-email, on the scan page
    | DomainQuery     // proxy-breaches-by-domain, on the scan page
    | AnalyticsQuery  // breach-analytics, on the breach-risk page
    | CatalogueQuery  // all-breaches, on the exposed-breach page

  /** The `retry_after` field: a number of seconds, JSON `null`, or absent. */
  datatype RetryAfter = Seconds(seconds: real) | NullValue | Absent

  /** The JSON body of an error response, as far as the pages read it:
      `retry_after` and `detail`. */
  datatype ErrorBody = ErrorBody(retryAfter: RetryAfter, detail: Option<string>)

  /** `response.ok`: a status in the 2xx range. */
  predicate IsOk(status: int) { 200 <= status <= 299 }

  /** `Math.ceil(seconds / 60)`: the least whole number of minutes covering the
      seconds. A result of minus zero renders as "0", like zero. */
  function MinutesToWait(seconds: real): (m: int)
    ensures 60.0 * ((m - 1) as real) < seconds <= 60.0 * (m as real)
  {
    -((-seconds / 60.0).Floor)
  }

  /** The rendered wait: `null / 60` is 0, and an absent `retry_after` makes the
      division NaN, which renders as "NaN". */
  function MinutesText(retryAfter: RetryAfter): (text: string)
    ensures retryAfter.Seconds? ==> ParseInt(text) == Some(MinutesToWait(retryAfter.seconds))
    ensures retryAfter.NullValue? ==> text == "0"
    ensures retryAfter.Absent? ==> text == "NaN"
  {
    match retryAfter
    case Seconds(seconds) =>
      IntToStringRoundTrip(MinutesToWait(seconds));
      IntToString(MinutesToWait(seconds))
    case NullValue => IntToString(0)
    case Absent => "NaN"
  }

  const RateLimitPhrase := "Rate limit exceeded"
  const NoDomainData := "Invalid domain or no data found"
  const FallbackAlertText := "Failed to fetch data"

  const WaitPrefix := RateLimitPhrase + ". Please try again in "
  const WaitSuffix := " minutes."

  /** The message a 429 throws: the rate-limit phrase, then the wait. */
  function RateLimitMessage(retryAfter: RetryAfter): (m: string)
    ensures StartsWith(m, RateLimitPhrase)
  {
    WaitPrefix + MinutesText(retryAfter) + WaitSuffix
  }

  /** The fixed message thrown for any other unsuccessful status. */
  function FailureMessage(q: Query): string
  {
    match q
    case EmailQuery => "Failed to check email"
    case DomainQuery => "Failed to check domain"
    case AnalyticsQuery => "Failed to fetch breach analytics"
    case CatalogueQuery => "Failed to fetch breaches data"
  }

  /** The error a query function throws for a response, or None when it returns data.
      The catalogue query has no 429 branch; only the domain query has a 404 branch. */
  function QueryError(q: Query, status: int, body: ErrorBody): (e: Option<string>)
    ensures e.None? <==> IsOk(status)
    ensures !IsOk(status) && status == 429 && q != CatalogueQuery ==>
              e == Some(RateLimitMessage(body.retryAfter))
    ensures !IsOk(status) && status != 429 && !(status == 404 && q == DomainQuery) ==>
              e == Some(FailureMessage(q))
    ensures q == CatalogueQuery && !IsOk(status) ==> e == Some(FailureMessage(q))
    ensures q == DomainQuery && status == 404 ==>
              e == Some(if body.detail.Some? && body.detail.value != "" then body.detail.value
                        else NoDomainData)
  {
    if IsOk(status) then None
    else if status == 429 && q != CatalogueQuery then Some(RateLimitMessage(body.retryAfter))
    else if status == 404 && q == DomainQuery then
      match body.detail
      case Some(d) => if d != "" then Some(d) else Some(NoDomainData)
      case None => Some(NoDomainData)
    else Some(FailureMessage(q))
  }

  datatype Alert =
    | RateLimitAlert(text: string)  // the yellow alert with a clock icon
    | ErrorAlert(text: string)      // the red alert with a warning icon

  /** `getRateLimitMessage(error)`: the rate-limit alert exactly when the message
      mentions the rate limit; otherwise the error alert with the message, or a
      fallback text when there is no message. */
  function AlertFor(message: Option<string>): (a: Alert)
    ensures a.RateLimitAlert? <==> message.Some? && Contains(message.value, RateLimitPhrase)
    ensures a.text != ""
    ensures message.Some? && message.value != "" ==> a.text == message.value
    ensures (message.None? || message.value == "") ==> a == ErrorAlert(FallbackAlertText)
  {
    match message
    case Some(m) =>
      if Contains(m, RateLimitPhrase) then RateLimitAlert(m)
      else if m != "" then ErrorAlert(m)
      else ErrorAlert(FallbackAlertText)
    case None => ErrorAlert(FallbackAlertText)
  }

  /** The wait in the rate-limit message reads back as the number of whole
      minutes covering `retry_after`. */
  lemma RateLimitMinutesReadBack(seconds: real)
    ensures var m := RateLimitMessage(Seconds(seconds));
            |WaitPrefix| + |WaitSuffix| <= |m|
            && ParseInt(m[|WaitPrefix|..|m| - |WaitSuffix|]) == Some(MinutesToWait(seconds))
  {
    var text := MinutesText(Seconds(seconds));
    var m := RateLimitMessage(Seconds(seconds));
    assert m == WaitPrefix + text + WaitSuffix;
    assert m[|WaitPrefix|..|m| - |WaitSuffix|] == text;
  }

  /** A 429 on any query with a 429 branch ends in the rate-limit alert. */
  lemma RateLimitedQueryShowsRateLimitAlert(q: Query, body: ErrorBody)
    requires q != CatalogueQuery
    ensures AlertFor(QueryError(q, 429, body)) == RateLimitAlert(RateLimitMessage(body.retryAfter))
  {
    var m := RateLimitMessage(body.retryAfter);
    assert StartsWith(m, RateLimitPhrase);
  }

  /** The fixed failure messages never trigger the rate-limit alert. */
  lemma FailureMessageShowsErrorAlert(q: Query)
    ensures AlertFor(Some(FailureMessage(q))) == ErrorAlert(FailureMessage(q))
  {
    assert RateLimitPhrase[0] == 'R';
    MissingFirstCharNotContained(FailureMessage(q), RateLimitPhrase);
  }

  /** The domain query's own 404 text is shown in the error alert. */
  lemma NoDomainDataShowsErrorAlert()
    ensures AlertFor(Some(NoDomainData)) == ErrorAlert(NoDomainData)
  {
    assert RateLimitPhrase[0] == 'R';
    MissingFirstCharNotContained(NoDomainData, RateLimitPhrase);
  }

  /** A 404 on the domain query shows the server's `detail`, and shows it in the
      rate-limit alert exactly when the detail itself mentions the rate limit. */
  lemma DomainNotFoundAlert(body: ErrorBody)
    ensures body.detail.Some? && body.detail.value != "" ==>
              AlertFor(QueryError(DomainQuery, 404, body)).text == body.detail.value
    ensures AlertFor(QueryError(DomainQuery, 404, body)).RateLimitAlert? <==>
              body.detail.Some? && Contains(body.detail.value, RateLimitPhrase)
    ensures body.detail.None? || body.detail.value == "" ==>
              AlertFor(QueryError(DomainQuery, 404, body)) == ErrorAlert(NoDomainData)
  {
    var e := QueryError(DomainQuery, 404, body);
    if body.detail.Some? && body.detail.value != "" {
      assert e == Some(body.detail.value);
    } else {
      assert e == Some(NoDomainData);
      NoDomainDataShowsErrorAlert();
      if body.detail.Some? {
        assert body.detail.value == "";
        assert !StartsWith(body.detail.value, RateLimitPhrase);
      }
    }
  }

}

=== FILE: keyed.dfy ===
/** Sequences of named entries used as insertion-ordered maps, the way the
    pages use a JavaScript `Map`: lookup finds the first entry with a name,
    `set` on a present name updates in place, on an absent name appends. */
module Keyed {

  /** Position of the first entry named `key`, or `|s|` when there is none. */
  function IndexOfName<T>(s: seq<T>, nameOf: T -> string, key: string): (k: nat)
    ensures k <= |s|
    ensures k < |s| ==> nameOf(s[k]) == key
    ensures forall j :: 0 <= j < k ==> nameOf(s[j]) != key
  {
    if |s| == 0 then 0
    else if nameOf(s[0]) == key then 0
    else 1 + IndexOfName(s[1..], nameOf, key)
  }

  function NamesOf<T>(s: seq<T>, nameOf: T -> string): set<string>
  {
    if |s| == 0 then {} else {nameOf(s[0])} + NamesOf(s[1..], nameOf)
  }

  /** The names of the entries in map order, which is the order a `Map`'s
      `entries()` yields them in. */
  function NameOrder<T>(s: seq<T>, nameOf: T -> string): (names: seq<string>)
    ensures |names| == |s|
    ensures forall i :: 0 <= i < |s| ==> names[i] == nameOf(s[i])
  {
    seq(|s|, i requires 0 <= i < |s| => nameOf(s[i]))
  }

  ghost predicate DistinctBy<T>(s: seq<T>, nameOf: T -> string)
  {
    forall i, j :: 0 <= i < j < |s| ==> nameOf(s[i]) != nameOf(s[j])
  }

  /** A name is present exactly when lookup finds it. */
  lemma {:induction false} NamesOfMembership<T>(s: seq<T>, nameOf: T -> string, key: string)
    ensures key in NamesOf(s, nameOf) <==> IndexOfName(s, nameOf, key) < |s|
  {
    if |s| > 0 && nameOf(s[0]) != key {
      NamesOfMembership(s[1..], nameOf, key);
    }
  }

  lemma NamesOfContains<T>(s: seq<T>, nameOf: T -> string, i: nat)
    requires i < |s|
    ensures nameOf(s[i]) in NamesOf(s, nameOf)
  {
    NamesOfMembership(s, nameOf, nameOf(s[i]));
  }

  /** In a sequence with distinct names, lookup of an entry's name finds that entry. */
  lemma IndexOfDistinct<T>(s: seq<T>, nameOf: T -> string, i: nat)
    requires DistinctBy(s, nameOf) && i < |s|
    ensures IndexOfName(s, nameOf, nameOf(s[i])) == i
  {
  }

  /** Updating an entry without renaming it leaves every lookup position unchanged. */
  lemma IndexOfNameUpdate<T>(s: seq<T>, nameOf: T -> string, k: nat, x: T, key: string)
    requires k < |s| && nameOf(x) == nameOf(s[k])
    ensures IndexOfName(s[k := x], nameOf, key) == IndexOfName(s, nameOf, key)
  {
    assert forall j :: 0 <= j < |s| ==> nameOf(s[k := x][j]) == nameOf(s[j]);
  }

  lemma IndexOfNameAppend<T>(s: seq<T>, nameOf: T -> string, x: T, key: string)
    ensures IndexOfName(s + [x], nameOf, key) ==
            if IndexOfName(s, nameOf, key) < |s| then IndexOfName(s, nameOf, key)
            else if nameOf(x) == key then |s|
            else |s| + 1
  {
    var a := IndexOfName(s + [x], nameOf, key);
    var b := IndexOfName(s, nameOf, key);
    assert forall j :: 0 <= j < |s| ==> (s + [x])[j] == s[j];
    assert (s + [x])[|s|] == x;
  }

  lemma NamesOfUpdate<T>(s: seq<T>, nameOf: T -> string, k: nat, x: T)
    requires k < |s| && nameOf(x) == nameOf(s[k])
    ensures NamesOf(s[k := x], nameOf) == NamesOf(s, nameOf)
  {
    forall key ensures key in NamesOf(s[k := x], nameOf) <==> key in NamesOf(s, nameOf) {
      NamesOfMembership(s[k := x], nameOf, key);
      NamesOfMembership(s, nameOf, key);
      IndexOfNameUpdate(s, nameOf, k, x, key);
    }
  }

  lemma {:induction false} NamesOfAppend<T>(s: seq<T>, nameOf: T -> string, x: T)
    ensures NamesOf(s + [x], nameOf) == NamesOf(s, nameOf) + {nameOf(x)}
  {
    if |s| > 0 {
      assert (s + [x])[1..] == s[1..] + [x];
      NamesOfAppend(s[1..], nameOf, x);
    }
  }

  lemma DistinctUpdate<T>(s: seq<T>, nameOf: T -> string, k: nat, x: T)
    requires k < |s| && nameOf(x) == nameOf(s[k])
    ensures DistinctBy(s, nameOf) ==> DistinctBy(s[k := x], nameOf)
  {
  }

  lemma DistinctAppend<T>(s: seq<T>, nameOf: T -> string, x: T)
    requires IndexOfName(s, nameOf, nameOf(x)) == |s|
    ensures DistinctBy(s, nameOf) ==> DistinctBy(s + [x], nameOf)
  {
  }

  /** A name is present exactly when some entry carries it. */
  lemma {:induction false} NamesOfElements<T>(s: seq<T>, nameOf: T -> string, key: string)
    ensures key in NamesOf(s, nameOf) <==> exists x :: x in s && nameOf(x) == key
  {
    if |s| > 0 {
      NamesOfElements(s[1..], nameOf, key);
      assert s == [s[0]] + s[1..];
    }
  }

  /** Reordering the entries does not change which names are present. */
  lemma NamesOfPermutation<T>(s: seq<T>, t: seq<T>, nameOf: T -> string)
    requires multiset(s) == multiset(t)
    ensures NamesOf(s, nameOf) == NamesOf(t, nameOf)
  {
    forall key ensures key in NamesOf(s, nameOf) <==> key in NamesOf(t, nameOf) {
      NamesOfElements(s, nameOf, key);
      NamesOfElements(t, nameOf, key);
      assert forall x :: x in s <==> x in multiset(s);
      assert forall x :: x in t <==> x in multiset(t);
    }
  }
}

=== FILE: pagination.dfy ===
/** Paging of the breach table on the exposed-breach page: the page count,
    the rows of a page, the sliding window of page numbers (`getPageRange`),
    the Previous/Next buttons and the links the pager shows. */
module Pagination {

  import opened Wrappers

  const ItemsPerPage := 10
  const MaxVisiblePages := 5

  function Min(a: int, b: int): int { if a <= b then a else b }
  function Max(a: int, b: int): int { if a >= b then a else b }

  /** `totalPages`: ⌈n / 10⌉, and 0 for an empty list. */
  function TotalPages(n: nat): (p: nat)
    ensures n == 0 <==> p == 0
    ensures n > 0 ==> (p - 1) * ItemsPerPage < n <= p * ItemsPerPage
  {
    if n == 0 then 0 else (n + ItemsPerPage - 1) / ItemsPerPage
  }

  /** `Array.prototype.slice(start, end)`: negative positions count from the
      end, and both positions are clamped to the list. */
  function Slice<T>(s: seq<T>, start: int, end: int): (r: seq<T>)
    ensures 0 <= start <= end ==> r == s[Min(start, |s|)..Min(end, |s|)]
  {
    var from := if start < 0 then Max(|s| + start, 0) else Min(start, |s|);
    var to := if end < 0 then Max(|s| + end, 0) else Min(end, |s|);
    if from < to then s[from..to] else []
  }

  /** `currentBreaches`: the rows of page `page`, counted from 1. */
  function PageRows<T>(s: seq<T>, page: int): (r: seq<T>)
    ensures |r| <= ItemsPerPage
  {
    var start := (page - 1) * ItemsPerPage;
    Slice(s, start, start + ItemsPerPage)
  }

  /** Page `p` of a list shows positions `(p-1)*10` up to `p*10`, cut at the end of
      the list; every page up to the last is non-empty and all but the last are full. */
  lemma PageRowsWindow<T>(s: seq<T>, page: int)
    requires 1 <= page
    ensures PageRows(s, page) ==
            s[Min((page - 1) * ItemsPerPage, |s|)..Min(page * ItemsPerPage, |s|)]
    ensures page <= TotalPages(|s|) ==> |PageRows(s, page)| > 0
    ensures page < TotalPages(|s|) ==> |PageRows(s, page)| == ItemsPerPage
  {
  }

  /** Pages 1 to k, one after the other. */
  function PagesUpTo<T>(s: seq<T>, k: nat): seq<T>
  {
    if k == 0 then [] else PagesUpTo(s, k - 1) + PageRows(s, k)
  }

  lemma {:induction false} PagesUpToIsPrefix<T>(s: seq<T>, k: nat)
    ensures PagesUpTo(s, k) == s[..Min(k * ItemsPerPage, |s|)]
  {
    if k > 0 {
      PagesUpToIsPrefix(s, k - 1);
      PageRowsWindow(s, k);
      var a := Min((k - 1) * ItemsPerPage, |s|);
      var b := Min(k * ItemsPerPage, |s|);
      assert s[..a] + s[a..b] == s[..b];
    }
  }

  /** Pages 1 to `totalPages`, read in order, are exactly the list. */
  lemma PagesPartitionList<T>(s: seq<T>)
    ensures PagesUpTo(s, TotalPages(|s|)) == s
  {
    PagesUpToIsPrefix(s, TotalPages(|s|));
  }

  /** `getPageRange`: up to five consecutive page numbers starting two before
      the current page (but not before page 1), shifted back when the window
      would run past the last page. */
  function PageRange(current: int, total: nat): (r: seq<int>)
    ensures |r| == Min(MaxVisiblePages, total)
    ensures forall i :: 0 <= i < |r| ==> 1 <= r[i] <= total
    ensures forall i :: 0 < i < |r| ==> r[i] == r[i - 1] + 1
    ensures forall i :: 0 <= i < |r| ==> r[i] == r[0] + i
    ensures total >= 1 ==>
              r[0] == Max(1, Min(current - MaxVisiblePages / 2, total - MaxVisiblePages + 1))
  {
    var half := MaxVisiblePages / 2;
    var start0 := Max(1, current - half);
    var end := Min(total, start0 + MaxVisiblePages - 1);
    var start := if end - start0 + 1 < MaxVisiblePages then Max(1, end - MaxVisiblePages + 1) else start0;
    var length := end - start + 1;
    if length <= 0 then [] else seq(length, i requires 0 <= i < length => start + i)
  }

  /** The window always shows the current page when that page exists. */
  lemma PageRangeContainsCurrent(current: int, total: nat)
    requires 1 <= current <= total
    ensures current in PageRange(current, total)
  {
    var r := PageRange(current, total);
    assert r[current - r[0]] == current;
  }

  /** `setCurrentPage((prev) => Math.max(prev - 1, 1))`. */
  function PreviousPage(page: int): (p: int)
    ensures p >= 1
    ensures page > 1 ==> p == page - 1
    ensures page <= 1 ==> p == 1
  {
    Max(page - 1, 1)
  }

  /** `setCurrentPage((prev) => Math.min(prev + 1, totalPages))`. */
  function NextPage(page: int, total: nat): (p: int)
    ensures p <= total
    ensures page < total ==> p == page + 1
    ensures page >= total ==> p == total
  {
    Min(page + 1, total)
  }

  /** The controls of the pager: Previous, Next, the first-page and last-page
      links, and the `index`-th link of the window. */
  datatype Click = Previous | Next | FirstLink | LastLink | WindowLink(index: nat)

  function AfterClick(page: int, total: nat, c: Click): int
  {
    match c
    case Previous => PreviousPage(page)
    case Next => NextPage(page, total)
    case FirstLink => 1
    case LastLink => total
    case WindowLink(i) =>
      var window := PageRange(page, total);
      if i < |window| then window[i] else page
  }

  /** Whatever control is used, the current page stays between 1 and `totalPages`. */
  lemma ClicksKeepPageInRange(page: int, total: nat, c: Click)
    requires 1 <= page <= total
    ensures 1 <= AfterClick(page, total, c) <= total
  {
  }

  lemma {:induction false} ClickSequenceKeepsPageInRange(page: int, total: nat, clicks: seq<Click>)
    requires 1 <= page <= total
    ensures 1 <= Replay(page, total, clicks) <= total
    decreases |clicks|
  {
    if |clicks| > 0 {
      ClicksKeepPageInRange(page, total, clicks[0]);
      ClickSequenceKeepsPageInRange(AfterClick(page, total, clicks[0]), total, clicks[1..]);
    }
  }

  /** The page reached from `page` by a run of clicks. */
  function Replay(page: int, total: nat, clicks: seq<Click>): int
    decreases |clicks|
  {
    if |clicks| == 0 then page else Replay(AfterClick(page, total, clicks[0]), total, clicks[1..])
  }

  /** One entry between the Previous and Next buttons: a page link (the window's
      link for the current page is the active one) or an ellipsis. */
  datatype PagerItem = PageLink(page: int, active: bool) | Ellipsis

  /** The pager: whether Previous and Next are enabled, and the entries between them. */
  datatype Pager = Pager(previousEnabled: bool, items: seq<PagerItem>, nextEnabled: bool)

  predicate IsActive(item: PagerItem) { item.PageLink? && item.active }

  /** The link to `current` is among the entries and is the only active one. */
  predicate OnlyActiveLink(items: seq<PagerItem>, current: int)
  {
    && (exists i :: 0 <= i < |items| && items[i] == PageLink(current, true))
    && forall i, j :: 0 <= i < j < |items| ==> !(IsActive(items[i]) && IsActive(items[j]))
  }

  function WindowLinks(current: int, window: seq<int>): (r: seq<PagerItem>)
    ensures |r| == |window|
    ensures forall i :: 0 <= i < |r| ==> r[i] == PageLink(window[i], window[i] == current)
    ensures (exists i :: 0 <= i < |r| && IsActive(r[i])) <==> current in window
    ensures (forall i, j :: 0 <= i < j < |window| ==> window[i] != window[j]) ==>
              forall i, j :: 0 <= i < j < |r| ==> !(IsActive(r[i]) && IsActive(r[j]))
  {
    seq(|window|, i requires 0 <= i < |window| => PageLink(window[i], window[i] == current))
  }

  /** The first-page link is shown from page 4 on, once there are more than five pages. */
  predicate ShowsFirstLink(current: int, total: nat) { current > 3 && total > MaxVisiblePages }

  /** The last-page link is shown while the current page is more than two pages from the end. */
  predicate ShowsLastLink(current: int, total: nat) { current < total - 2 && total > MaxVisiblePages }

  /** The first-page link is shown exactly when page 1 is outside the window, and the
      last-page link exactly when the last page is outside it. */
  lemma EdgeLinksShowHiddenEnds(current: int, total: nat)
    requires 1 <= current <= total
    ensures ShowsFirstLink(current, total) <==> 1 !in PageRange(current, total)
    ensures ShowsLastLink(current, total) <==> total !in PageRange(current, total)
  {
    var r := PageRange(current, total);
    if !ShowsFirstLink(current, total) {
      assert r[0] == 1;
    }
    if !ShowsLastLink(current, total) {
      assert r[|r| - 1] == total;
    }
  }

  /** The pager as the page renders it; nothing is shown for a single page.  The
      ellipsis after the first-page link appears from page 5 on, the one before the
      last-page link while the current page is more than three pages from the end. */
  function PagerAsWritten(current: int, total: nat): (p: Option<Pager>)
    ensures p.None? <==> total <= 1
    ensures p.Some? ==> (p.value.previousEnabled <==> current != 1)
    ensures p.Some? ==> (p.value.nextEnabled <==> current != total)
  {
    if total <= 1 then None
    else
      var lead :=
        if ShowsFirstLink(current, total)
        then [PageLink(1, false)] + (if current > 4 then [Ellipsis] else [])
        else [];
      var trail :=
        if ShowsLastLink(current, total)
        then (if current < total - 3 then [Ellipsis] else []) + [PageLink(total, false)]
        else [];
      Some(Pager(current != 1, lead + WindowLinks(current, PageRange(current, total)) + trail,
                 current != total))
  }

  /** With six pages and page 5 current, the window is pages 2 to 6, yet an ellipsis
      stands between the link to page 1 and the link to page 2. */
  lemma AsWrittenEllipsisHidesNothing()
    ensures PagerAsWritten(5, 6).Some?
    ensures PagerAsWritten(5, 6).value.items[..3] == [PageLink(1, false), Ellipsis, PageLink(2, false)]
  {
    assert PageRange(5, 6) == [2, 3, 4, 5, 6];
  }

  /** With six pages and page 1 current, the window is pages 1 to 5, yet an ellipsis
      stands between the link to page 5 and the link to page 6. */
  lemma AsWrittenTrailingEllipsisHidesNothing()
    ensures PagerAsWritten(1, 6).Some?
    ensures PagerAsWritten(1, 6).value.items[4..] == [PageLink(5, false), Ellipsis, PageLink(6, false)]
  {
    assert PageRange(1, 6) == [1, 2, 3, 4, 5];
  }

  /** The pager with each ellipsis shown exactly when it stands for at least one page
      left out between the first-page link and the window, or between the window and
      the last-page link. */
  function PagerFor(current: int, total: nat): (p: Option<Pager>)
    ensures p.None? <==> total <= 1
    ensures p.Some? ==> (p.value.previousEnabled <==> current != 1)
    ensures p.Some? ==> (p.value.nextEnabled <==> current != total)
  {
    if total <= 1 then None
    else
      var window := PageRange(current, total);
      Some(Pager(current != 1,
                 Entries(current, total, window, ShowsFirstLink(current, total), ShowsLastLink(current, total)),
                 current != total))
  }

  /** The entries read as links to increasing pages, where each link is followed
      either by the link to the very next page, or by an ellipsis and then a link at
      least two pages further on: every ellipsis stands for at least one left-out
      page, and pages are left out only behind an ellipsis. */
  ghost predicate MarksGaps(items: seq<PagerItem>)
    decreases |items|
  {
    && |items| > 0
    && items[0].PageLink?
    && (|| |items| == 1
        || (&& items[1].PageLink?
            && items[1].page == items[0].page + 1
            && MarksGaps(items[1..]))
        || (&& |items| > 2
            && items[1].Ellipsis?
            && items[2].PageLink?
            && items[2].page > items[0].page + 1
            && MarksGaps(items[2..])))
  }

  /** The entries start with a link to page 1 and end with a link to the last page,
      so that with `MarksGaps` every page is either linked or left out behind an ellipsis. */
  ghost predicate SpansAllPages(items: seq<PagerItem>, total: nat)
  {
    |items| > 0 && items[0].PageLink? && items[0].page == 1 &&
    items[|items| - 1].PageLink? && items[|items| - 1].page == total
  }

  /** The links of a window of consecutive pages: consecutive links, no ellipsis. */
  lemma {:induction false} WindowLinksConsecutive(current: int, window: seq<int>)
    requires |window| > 0
    requires forall i :: 0 <= i < |window| ==> window[i] == window[0] + i
    ensures var w := WindowLinks(current, window);
            MarksGaps(w) &&
            w[0].PageLink? && w[0].page == window[0] &&
            w[|w| - 1].PageLink? && w[|w| - 1].page == window[|window| - 1]
    decreases |window|
  {
    var w := WindowLinks(current, window);
    if |window| > 1 {
      var tail := window[1..];
      assert forall i :: 0 <= i < |tail| ==> tail[i] == tail[0] + i;
      WindowLinksConsecutive(current, tail);
      assert w[1..] == WindowLinks(current, tail);
    }
  }

  /** A link put in front of a run of entries, with an ellipsis between exactly when
      pages lie between them, keeps the rule. */
  lemma PrependLink(link: PagerItem, gap: bool, s: seq<PagerItem>)
    requires link.PageLink? && |s| > 0 && s[0].PageLink?
    requires gap <==> s[0].page > link.page + 1
    requires s[0].page > link.page
    requires MarksGaps(s)
    ensures var r := [link] + (if gap then [Ellipsis] else []) + s;
            MarksGaps(r) && r[0] == link && r[|r| - 1] == s[|s| - 1]
  {
    var r := [link] + (if gap then [Ellipsis] else []) + s;
    if gap {
      assert r[2..] == s;
    } else {
      assert r[1..] == s;
    }
  }

  /** The mirror image: a link put after a run of entries. */
  lemma {:induction false} AppendLink(s: seq<PagerItem>, gap: bool, link: PagerItem)
    requires link.PageLink? && |s| > 0 && s[|s| - 1].PageLink?
    requires gap <==> link.page > s[|s| - 1].page + 1
    requires link.page > s[|s| - 1].page
    requires MarksGaps(s)
    ensures var r := s + (if gap then [Ellipsis] else []) + [link];
            MarksGaps(r) && r[0] == s[0] && r[|r| - 1] == link
    decreases |s|
  {
    var mid: seq<PagerItem> := if gap then [Ellipsis] else [];
    var r := s + mid + [link];
    if |s| == 1 {
      if gap {
        assert r == [s[0], Ellipsis, link];
        assert r[2..] == [link];
      } else {
        assert r == [s[0], link];
        assert r[1..] == [link];
      }
    } else if s[1].PageLink? && s[1].page == s[0].page + 1 && MarksGaps(s[1..]) {
      AppendLink(s[1..], gap, link);
      assert r[1..] == s[1..] + mid + [link];
    } else {
      AppendLink(s[2..], gap, link);
      assert r[2..] == s[2..] + mid + [link];
    }
  }

  /** The entries between Previous and Next, given the window of page numbers and
      whether the first-page and last-page links are shown. */
  function Entries(current: int, total: nat, window: seq<int>, first: bool, last: bool): seq<PagerItem>
    requires |window| > 0
  {
    Lead(window, first) + WindowLinks(current, window) + Trail(total, window, last)
  }

  /** The first-page link and its ellipsis, when shown. */
  function Lead(window: seq<int>, first: bool): seq<PagerItem>
    requires |window| > 0
  {
    if first then [PageLink(1, false)] + (if window[0] > 2 then [Ellipsis] else []) else []
  }

  /** The last-page link and its ellipsis, when shown. */
  function Trail(total: nat, window: seq<int>, last: bool): seq<PagerItem>
    requires |window| > 0
  {
    if last then (if window[|window| - 1] < total - 1 then [Ellipsis] else []) + [PageLink(total, false)] else []
  }

  /** The first-page link and its ellipsis, put in front of a run of entries that
      starts at the window's first page, keep the rule and start the entries at page 1. */
  lemma LeadKeepsRules(window: seq<int>, first: bool, s: seq<PagerItem>)
    requires |window| > 0 && 1 <= window[0]
    requires first <==> window[0] > 1
    requires |s| > 0 && s[0].PageLink? && s[0].page == window[0]
    requires MarksGaps(s)
    ensures var r := Lead(window, first) + s;
            MarksGaps(r) && r[0].PageLink? && r[0].page == 1 && r[|r| - 1] == s[|s| - 1]
  {
    if first {
      var gap := window[0] > 2;
      var link := PageLink(1, false);
      var mid: seq<PagerItem> := if gap then [Ellipsis] else [];
      assert Lead(window, first) == [link] + mid;
      PrependLink(link, gap, s);
      assert ([link] + mid) + s == [link] + mid + s;
    } else {
      assert Lead(window, first) + s == s;
    }
  }

  /** Any run of consecutive page numbers, completed by the edge links exactly when
      it leaves out the first or the last page, keeps both rules. */
  lemma {:induction false} EntriesMarkExactlyTheGaps(current: int, total: nat, window: seq<int>, first: bool, last: bool)
    requires |window| > 0
    requires forall i :: 0 <= i < |window| ==> window[i] == window[0] + i
    requires 1 <= window[0] && window[|window| - 1] <= total
    requires first <==> window[0] > 1
    requires last <==> window[|window| - 1] < total
    ensures SpansAllPages(Entries(current, total, window, first, last), total)
    ensures MarksGaps(Entries(current, total, window, first, last))
  {
    var w := WindowLinks(current, window);
    WindowLinksConsecutive(current, window);
    var withFront := Lead(window, first) + w;
    LeadKeepsRules(window, first, w);
    if last {
      var gap := window[|window| - 1] < total - 1;
      AppendLink(withFront, gap, PageLink(total, false));
      assert withFront + Trail(total, window, last) == withFront + (if gap then [Ellipsis] else []) + [PageLink(total, false)];
    } else {
      assert Trail(total, window, last) == [];
      assert withFront + Trail(total, window, last) == withFront;
    }
    assert Entries(current, total, window, first, last) == withFront + Trail(total, window, last);
  }

  /** The first page of the window is page 1 exactly when no first-page link is
      shown, and its last page is the last page exactly when no last-page link is. */
  lemma WindowEnds(current: int, total: nat)
    requires 1 <= current <= total
    ensures var r := PageRange(current, total);
            |r| > 0 && 1 <= r[0] && r[|r| - 1] <= total &&
            (ShowsFirstLink(current, total) <==> r[0] > 1) &&
            (ShowsLastLink(current, total) <==> r[|r| - 1] < total)
  {
    EdgeLinksShowHiddenEnds(current, total);
  }

  /** For any page of a list with more than one page, the pager links the first and
      last pages, marks every gap with an ellipsis and shows no ellipsis without a gap. */
  lemma PagerMarksExactlyTheGaps(current: int, total: nat)
    requires 1 <= current <= total
    requires total > 1
    ensures PagerFor(current, total).Some?
    ensures SpansAllPages(PagerFor(current, total).value.items, total)
    ensures MarksGaps(PagerFor(current, total).value.items)
  {
    var window := PageRange(current, total);
    WindowEnds(current, total);
    var first := ShowsFirstLink(current, total);
    var last := ShowsLastLink(current, total);
    EntriesMarkExactlyTheGaps(current, total, window, first, last);
    assert PagerFor(current, total).value.items == Entries(current, total, window, first, last);
  }

  /** Edge links and ellipses around a window of consecutive pages that holds the
      current page leave its link the only active one. */
  lemma {:induction false} OnlyWindowLinkIsActive(lead: seq<PagerItem>, current: int, window: seq<int>, trail: seq<PagerItem>)
    requires forall i :: 0 <= i < |lead| ==> !IsActive(lead[i])
    requires forall i :: 0 <= i < |trail| ==> !IsActive(trail[i])
    requires forall i :: 0 <= i < |window| ==> window[i] == window[0] + i
    requires current in window
    ensures OnlyActiveLink(lead + WindowLinks(current, window) + trail, current)
  {
    var w := WindowLinks(current, window);
    var items := lead + w + trail;
    var k := current - window[0];
    assert 0 <= k < |window| && window[k] == current;
    assert items[|lead| + k] == PageLink(current, true);
    forall i | 0 <= i < |items| && IsActive(items[i]) ensures i == |lead| + k {
      assert items[i] == w[i - |lead|];
    }
  }

  /** On any page of a list with more than one page, the pager shows exactly one
      active link, the one to the current page. */
  lemma PagerHasOneActiveLink(current: int, total: nat)
    requires 1 <= current <= total
    requires total > 1
    ensures OnlyActiveLink(PagerFor(current, total).value.items, current)
  {
    var window := PageRange(current, total);
    PageRangeContainsCurrent(current, total);
    var first := ShowsFirstLink(current, total);
    var last := ShowsLastLink(current, total);
    OnlyWindowLinkIsActive(Lead(window, first), current, window, Trail(total, window, last));
    assert PagerFor(current, total).value.items ==
           Lead(window, first) + WindowLinks(current, window) + Trail(total, window, last);
  }

  /** The same holds for the page as written. */
  lemma AsWrittenHasOneActiveLink(current: int, total: nat)
    requires 1 <= current <= total
    requires total > 1
    ensures OnlyActiveLink(PagerAsWritten(current, total).value.items, current)
  {
    var window := PageRange(current, total);
    PageRangeContainsCurrent(current, total);
    var first := ShowsFirstLink(current, total);
    var last := ShowsLastLink(current, total);
    var lead := if first then [PageLink(1, false)] + (if current > 4 then [Ellipsis] else []) else [];
    var trail := if last then (if current < total - 3 then [Ellipsis] else []) + [PageLink(total, false)] else [];
    OnlyWindowLinkIsActive(lead, current, window, trail);
    assert PagerAsWritten(current, total).value.items == lead + WindowLinks(current, window) + trail;
  }

  /** The page as written breaks the gap rule: with six pages and page 5 current an
      ellipsis stands between pages 1 and 2. */
  lemma AsWrittenMarksAGapThatIsNotThere()
    ensures PagerAsWritten(5, 6).Some?
    ensures !MarksGaps(PagerAsWritten(5, 6).value.items)
  {
    AsWrittenEllipsisHidesNothing();
    var items := PagerAsWritten(5, 6).value.items;
    assert items[1].Ellipsis? && items[0].page == 1 && items[2].page == 2;
  }

  /** The page as written and the gap rule disagree only with exactly six pages, when
      the current page is one of the first two or the last two. */
  lemma AsWrittenDiffersOnlyOnSixPages(current: int, total: nat)
    requires 1 <= current <= total
    ensures PagerAsWritten(current, total) == PagerFor(current, total) <==>
            !(total == 6 && current != 3 && current != 4)
  {
    if total > 1 {
      var window := PageRange(current, total);
      WindowEnds(current, total);
      var first := ShowsFirstLink(current, total);
      var last := ShowsLastLink(current, total);
      var lead := if first then [PageLink(1, false)] + (if current > 4 then [Ellipsis] else []) else [];
      var trail := if last then (if current < total - 3 then [Ellipsis] else []) + [PageLink(total, false)] else [];
      var w := WindowLinks(current, window);
      assert PagerAsWritten(current, total).value.items == lead + w + trail;
      assert PagerFor(current, total).value.items == Lead(window, first) + w + Trail(total, window, last);
      if total == 6 && current != 3 && current != 4 {
        if current <= 2 {
          assert window == [1, 2, 3, 4, 5];
          assert PagerAsWritten(current, total).value.items[5] == Ellipsis;
          assert PagerFor(current, total).value.items[5] == PageLink(6, false);
        } else {
          assert window == [2, 3, 4, 5, 6];
          assert PagerAsWritten(current, total).value.items[1] == Ellipsis;
          assert PagerFor(current, total).value.items[1] == PageLink(2, false);
        }
      } else {
        assert first ==> (current > 4 <==> window[0] > 2);
        assert last ==> (current < total - 3 <==> window[|window| - 1] < total - 1);
        assert lead == Lead(window, first);
        assert trail == Trail(total, window, last);
      }
    }
  }
}

=== FILE: ranking.dfy ===
/** Stable descending sort by an integer key: the behaviour of
    `xs.sort((a, b) => key(b) - key(a))` under the stable `Array.prototype.sort`
    of ECMAScript 2019, written as insertion sort on an immutable sequence. */
module Ranking {

  import opened Sums
  import opened Keyed

  ghost predicate NonIncreasing<T>(s: seq<T>, key: T -> int)
  {
    forall i, j :: 0 <= i < j < |s| ==> key(s[i]) >= key(s[j])
  }

  /** Places `x` in front of the first element whose key does not exceed its own;
      `x` stands for an element that came earlier in the input, so among equal
      keys it goes first. */
  function Insert<T>(x: T, s: seq<T>, key: T -> int): (r: seq<T>)
    ensures multiset(r) == multiset(s) + multiset{x}
  {
    if |s| == 0 then [x]
    else if key(x) >= key(s[0]) then [x] + s
    else
      assert s == [s[0]] + s[1..];
      [s[0]] + Insert(x, s[1..], key)
  }

  lemma {:induction false} InsertKeepsOrder<T>(x: T, s: seq<T>, key: T -> int)
    requires NonIncreasing(s, key)
    ensures NonIncreasing(Insert(x, s, key), key)
  {
    if |s| > 0 && key(x) < key(s[0]) {
      var tail := Insert(x, s[1..], key);
      InsertKeepsOrder(x, s[1..], key);
      forall j | 0 <= j < |tail| ensures key(s[0]) >= key(tail[j]) {
        assert tail[j] in multiset(tail);
        assert tail[j] == x || tail[j] in multiset(s[1..]);
      }
    }
  }

  function SortDesc<T>(s: seq<T>, key: T -> int): (r: seq<T>)
    ensures |r| == |s|
    ensures multiset(r) == multiset(s)
    ensures NonIncreasing(r, key)
  {
    if |s| == 0 then []
    else
      var r := Insert(s[0], SortDesc(s[1..], key), key);
      InsertKeepsOrder(s[0], SortDesc(s[1..], key), key);
      assert s == [s[0]] + s[1..];
      assert |r| == |multiset(r)|;
      r
  }

  /** The elements of `s` whose key is `k`, in order. */
  function WithKey<T>(s: seq<T>, key: T -> int, k: int): seq<T>
  {
    if |s| == 0 then []
    else if key(s[0]) == k then [s[0]] + WithKey(s[1..], key, k)
    else WithKey(s[1..], key, k)
  }

  lemma {:induction false} InsertWithKey<T>(x: T, s: seq<T>, key: T -> int, k: int)
    ensures WithKey(Insert(x, s, key), key, k)
            == (if key(x) == k then [x] else []) + WithKey(s, key, k)
  {
    if |s| == 0 {
    } else if key(x) >= key(s[0]) {
      assert ([x] + s)[1..] == s;
    } else {
      InsertWithKey(x, s[1..], key, k);
      assert ([s[0]] + Insert(x, s[1..], key))[1..] == Insert(x, s[1..], key);
    }
  }

  /** Stability: elements with equal keys keep their relative order. */
  lemma {:induction false} SortDescIsStable<T>(s: seq<T>, key: T -> int, k: int)
    ensures WithKey(SortDesc(s, key), key, k) == WithKey(s, key, k)
  {
    if |s| > 0 {
      SortDescIsStable(s[1..], key, k);
      InsertWithKey(s[0], SortDesc(s[1..], key), key, k);
    }
  }

  lemma {:induction false} InsertSum<T>(x: T, s: seq<T>, key: T -> int, f: T -> int)
    ensures Sum(Insert(x, s, key), f) == f(x) + Sum(s, f)
  {
    if |s| > 0 && key(x) < key(s[0]) {
      InsertSum(x, s[1..], key, f);
      assert ([s[0]] + Insert(x, s[1..], key))[1..] == Insert(x, s[1..], key);
    } else if |s| > 0 {
      assert ([x] + s)[1..] == s;
    }
  }

  /** Sorting does not change any sum over the elements. */
  lemma {:induction false} SortDescSum<T>(s: seq<T>, key: T -> int, f: T -> int)
    ensures Sum(SortDesc(s, key), f) == Sum(s, f)
  {
    if |s| > 0 {
      SortDescSum(s[1..], key, f);
      InsertSum(s[0], SortDesc(s[1..], key), key, f);
    }
  }

  lemma {:induction false} InsertKeepsDistinct<T>(x: T, s: seq<T>, key: T -> int, nameOf: T -> string)
    requires DistinctBy(s, nameOf)
    requires forall i :: 0 <= i < |s| ==> nameOf(s[i]) != nameOf(x)
    ensures DistinctBy(Insert(x, s, key), nameOf)
  {
    if |s| > 0 && key(x) < key(s[0]) {
      var tail := Insert(x, s[1..], key);
      InsertKeepsDistinct(x, s[1..], key, nameOf);
      forall j | 0 <= j < |tail| ensures nameOf(s[0]) != nameOf(tail[j]) {
        assert tail[j] in multiset(tail);
        if tail[j] != x {
          assert tail[j] in s[1..];
        }
      }
    }
  }

  /** Sorting never makes two entries share a name. */
  lemma {:induction false} SortDescKeepsDistinct<T>(s: seq<T>, key: T -> int, nameOf: T -> string)
    requires DistinctBy(s, nameOf)
    ensures DistinctBy(SortDesc(s, key), nameOf)
  {
    if |s| > 0 {
      var rest := SortDesc(s[1..], key);
      SortDescKeepsDistinct(s[1..], key, nameOf);
      forall i | 0 <= i < |rest| ensures nameOf(rest[i]) != nameOf(s[0]) {
        assert rest[i] in multiset(s[1..]);
      }
      InsertKeepsDistinct(s[0], rest, key, nameOf);
    }
  }
}

=== FILE: scan_form.dfy ===
/** The scan page: normalising the email-check response (`parseBreachList`)
    and the checks that run before a query is sent (`handleEmailCheck`,
    `handleDomainCheck`). */
module ScanForm {

  import opened Wrappers
  import opened Text

  /** A JSON value as the response parser sees it. */
  datatype Json =
    | JNull
    | JBool(b: bool)
    | JNum(n: int)
    | JStr(s: string)
    | JArr(elems: seq<Json>)
    | JObj(members: seq<(string, Json)>)

  /** The `breaches` field of the email-check response, which comes either flat
      (`["A", "B"]`) or wrapped once (`[["A", "B"]]`). A missing field, a falsy
      value or any non-array yields no breaches; a non-empty array whose first
      element is itself an array yields that first element and drops the rest;
      any other array is returned as it is. */
  function ParseBreachList(breaches: Option<Json>): (r: seq<Json>)
    ensures breaches.None? || !breaches.value.JArr? ==> r == []
    ensures (breaches.Some? && breaches.value.JArr? && |breaches.value.elems| > 0 &&
             breaches.value.elems[0].JArr?) ==>
              r == breaches.value.elems[0].elems
    ensures (breaches.Some? && breaches.value.JArr? &&
             (|breaches.value.elems| == 0 || !breaches.value.elems[0].JArr?)) ==>
              r == breaches.value.elems
  {
    match breaches
    case Some(JArr(xs)) => if |xs| > 0 && xs[0].JArr? then xs[0].elems else xs
    case _ => []
  }

  /** Both response formats give the same list: a flat list is taken as it is, and
      a wrapped one is unwrapped, whatever follows the wrapped list. */
  lemma BreachListFormatsAgree(xs: seq<Json>, rest: seq<Json>)
    requires |xs| == 0 || !xs[0].JArr?
    ensures ParseBreachList(Some(JArr(xs))) == xs
    ensures ParseBreachList(Some(JArr([JArr(xs)] + rest))) == xs
  {
  }

  /** Parsing a parsed list again changes nothing unless its own first element
      is a list. */
  lemma ParseBreachListIsStable(breaches: Option<Json>)
    requires var r := ParseBreachList(breaches); |r| == 0 || !r[0].JArr?
    ensures ParseBreachList(Some(JArr(ParseBreachList(breaches)))) == ParseBreachList(breaches)
  {
  }

  lemma NestedFormatExample()
    ensures ParseBreachList(Some(JArr([JArr([JStr("A"), JStr("B")])])))
            == [JStr("A"), JStr("B")]
    ensures |ParseBreachList(Some(JArr([JArr([JStr("A"), JStr("B")])])))| == 2
  {
  }

  // ---------------------------------------------------------------------------
  // Submitting the forms

  datatype Toast = Toast(title: string, description: string)

  /** What pressing "Scan" does: send the query, or refuse with a toast. */
  datatype Submission = Fetch | Reject(toast: Toast)

  const InvalidEmail := Toast("Invalid Email", "Please enter a valid email address")
  const InvalidDomain := Toast("Invalid Domain", "Please enter a valid domain name")
  const InvalidDomainFormat :=
    Toast("Invalid Domain Format", "Please enter a valid domain name (e.g., example.com)")

  /** A one-character search succeeds exactly when the character occurs. */
  lemma {:induction false} ContainsCharIffMember(s: string, c: char)
    ensures Contains(s, [c]) <==> c in s
    decreases |s|
  {
    if |s| > 0 {
      ContainsCharIffMember(s[1..], c);
      assert s == [s[0]] + s[1..];
    }
  }

  /** The email check only asks for an '@' somewhere in a non-empty input. */
  function EmailSubmission(email: string): (s: Submission)
    ensures s == Fetch <==> '@' in email
    ensures s == Fetch ==> |email| > 0
    ensures s != Fetch ==> s == Reject(InvalidEmail)
  {
    ContainsCharIffMember(email, '@');
    if email == "" || !Contains(email, "@") then Reject(InvalidEmail) else Fetch
  }

  // ---------------------------------------------------------------------------
  // The domain rule

  predicate IsLabelChar(c: char) { IsAlnum(c) || c == '-' }

  /** A host-name label: 1 to 63 letters, digits and hyphens, beginning and
      ending with a letter or digit. */
  predicate ValidLabel(l: string)
  {
    && 1 <= |l| <= 63
    && IsAlnum(l[0])
    && IsAlnum(l[|l| - 1])
    && forall i :: 0 <= i < |l| ==> IsLabelChar(l[i])
  }

  /** Every dot-separated part of the domain is a valid label. */
  predicate ValidDomain(domain: string)
  {
    var labels := Split(domain, '.');
    forall i :: 0 <= i < |labels| ==> ValidLabel(labels[i])
  }

  /** The label sub-pattern of the page's regular expression,
      `[a-zA-Z0-9]([a-zA-Z0-9\-]{0,61}[a-zA-Z0-9])?`. */
  predicate LabelPattern(l: string)
  {
    && |l| >= 1
    && IsAlnum(l[0])
    && (|l| == 1 ||
        (&& |l| - 2 <= 61
         && (forall i :: 1 <= i < |l| - 1 ==> IsLabelChar(l[i]))
         && IsAlnum(l[|l| - 1])))
  }

  /** The whole anchored pattern, `^label(\.label)*$`: some non-empty prefix
      matches a label and is followed either by the end of the input or by a
      dot and another match. */
  predicate DomainPattern(d: string)
    decreases |d|
  {
    exists k :: 0 < k <= |d| && LabelPattern(d[..k]) &&
                (k == |d| || (d[k] == '.' && DomainPattern(d[k + 1..])))
  }

  lemma LabelPatternIsValidLabel(l: string)
    ensures LabelPattern(l) <==> ValidLabel(l)
  {
  }

  /** The label rule read one label at a time: the part before the first dot is
      a label, and what follows the dot, if there is one, is again a domain. */
  lemma {:induction false} ValidDomainFirstLabel(d: string)
    ensures var j := IndexOf(d, '.');
            ValidDomain(d) <==> ValidLabel(d[..j]) && (j == |d| || ValidDomain(d[j + 1..]))
  {
    var j := IndexOf(d, '.');
    var labels := Split(d, '.');
    if j < |d| {
      var rest := Split(d[j + 1..], '.');
      assert labels == [d[..j]] + rest;
      if ValidLabel(d[..j]) && ValidDomain(d[j + 1..]) {
        forall i | 0 <= i < |labels| ensures ValidLabel(labels[i]) {
          if i > 0 {
            assert labels[i] == rest[i - 1];
          }
        }
      }
      if ValidDomain(d) {
        assert ValidLabel(labels[0]);
        forall i | 0 <= i < |rest| ensures ValidLabel(rest[i]) {
          assert rest[i] == labels[i + 1];
        }
      }
    } else {
      assert labels == [d] && d[..j] == d;
      if ValidDomain(d) {
        assert ValidLabel(labels[0]);
      }
    }
  }

  /** A prefix matching the label pattern ends before the first dot. */
  lemma {:induction false} LabelPatternStopsAtDot(d: string, k: nat)
    requires 0 < k <= |d| && LabelPattern(d[..k])
    requires k == |d| || d[k] == '.'
    ensures IndexOf(d, '.') == k
  {
    LabelPatternIsValidLabel(d[..k]);
    assert forall i :: 0 <= i < k ==> d[i] == d[..k][i] && d[i] != '.';
  }

  /** The regular expression accepts exactly the dot-separated sequences of valid labels. */
  lemma {:induction false} DomainPatternIsLabelRule(d: string)
    ensures DomainPattern(d) <==> ValidDomain(d)
    decreases |d|
  {
    var j := IndexOf(d, '.');
    ValidDomainFirstLabel(d);
    if DomainPattern(d) {
      var k :| 0 < k <= |d| && LabelPattern(d[..k]) &&
               (k == |d| || (d[k] == '.' && DomainPattern(d[k + 1..])));
      LabelPatternStopsAtDot(d, k);
      LabelPatternIsValidLabel(d[..k]);
      if k < |d| {
        DomainPatternIsLabelRule(d[k + 1..]);
      }
    }
    if ValidDomain(d) {
      LabelPatternIsValidLabel(d[..j]);
      if j < |d| {
        DomainPatternIsLabelRule(d[j + 1..]);
      }
      assert 0 < j <= |d| && LabelPattern(d[..j]) &&
             (j == |d| || (d[j] == '.' && DomainPattern(d[j + 1..])));
    }
  }

  /** What one label match says about its characters. */
  lemma LabelPatternShape(l: string)
    requires LabelPattern(l)
    ensures |l| > 0 && IsAlnum(l[0]) && IsAlnum(l[|l| - 1])
    ensures forall i :: 0 <= i < |l| ==> IsLabelChar(l[i])
  {
  }

  /** Letters, digits, hyphens and dots only, a letter or digit at both ends, and
      a letter or digit on both sides of every dot. */
  ghost predicate DomainShaped(d: string)
  {
    && |d| > 0 && IsAlnum(d[0]) && IsAlnum(d[|d| - 1])
    && (forall i :: 0 <= i < |d| ==> d[i] == '.' || IsLabelChar(d[i]))
    && (forall i :: 0 <= i < |d| && d[i] == '.' ==>
          0 < i < |d| - 1 && IsAlnum(d[i - 1]) && IsAlnum(d[i + 1]))
  }

  /** A label, a dot and a well-shaped rest make a well-shaped whole. */
  lemma LabelDotShape(d: string, k: nat)
    requires 0 < k < |d| && d[k] == '.'
    requires IsAlnum(d[0]) && IsAlnum(d[k - 1])
    requires forall i :: 0 <= i < k ==> IsLabelChar(d[i])
    requires DomainShaped(d[k + 1..])
    ensures DomainShaped(d)
  {
    var rest := d[k + 1..];
    assert d[k + 1] == rest[0];
    assert d[|d| - 1] == rest[|rest| - 1];
    assert forall i :: k < i < |d| ==> d[i] == rest[i - k - 1];
    forall i | 0 <= i < |d| && d[i] == '.'
      ensures 0 < i < |d| - 1 && IsAlnum(d[i - 1]) && IsAlnum(d[i + 1])
    {
      if i > k + 1 {
        assert d[i - 1] == rest[i - k - 2];
      }
    }
  }

  /** Consequences of the pattern: letters, digits, hyphens and dots only, a
      letter or digit at both ends, and a letter or digit on both sides of every dot
      (so no empty label and no hyphen next to a dot). */
  lemma {:induction false} DomainPatternShape(d: string)
    requires DomainPattern(d)
    ensures |d| > 0 && IsAlnum(d[0]) && IsAlnum(d[|d| - 1])
    ensures forall i :: 0 <= i < |d| ==> d[i] == '.' || IsLabelChar(d[i])
    ensures forall i :: 0 <= i < |d| && d[i] == '.' ==>
              0 < i < |d| - 1 && IsAlnum(d[i - 1]) && IsAlnum(d[i + 1])
    decreases |d|
  {
    var k :| 0 < k <= |d| && LabelPattern(d[..k]) &&
             (k == |d| || (d[k] == '.' && DomainPattern(d[k + 1..])));
    var l := d[..k];
    LabelPatternShape(l);
    if k == |d| {
      assert l == d;
    } else {
      assert forall i :: 0 <= i < k ==> d[i] == l[i];
      DomainPatternShape(d[k + 1..]);
      LabelDotShape(d, k);
    }
    assert DomainShaped(d);
  }

  /** `handleDomainCheck`: an empty input and a malformed one are refused with
      different toasts; a domain made of valid labels is queried. */
  function DomainSubmission(domain: string): (s: Submission)
    ensures s == Fetch <==> ValidDomain(domain)
    ensures domain == "" ==> s == Reject(InvalidDomain)
    ensures domain != "" && !ValidDomain(domain) ==> s == Reject(InvalidDomainFormat)
  {
    DomainPatternIsLabelRule(domain);
    if domain == "" then Reject(InvalidDomain)
    else if !DomainPattern(domain) then Reject(InvalidDomainFormat)
    else Fetch
  }

  lemma AcceptsExampleCom()
    ensures DomainSubmission("example.com") == Fetch
  {
    var d := "example.com";
    assert d[..7] == "example" && d[7] == '.' && d[8..] == "com";
    assert LabelPattern("example");
    assert LabelPattern("com") && "com"[..3] == "com";
    assert DomainPattern("com");
    assert DomainPattern(d);
  }

  lemma RejectsLeadingHyphen()
    ensures DomainSubmission("-bad.com") == Reject(InvalidDomainFormat)
  {
    if DomainPattern("-bad.com") {
      DomainPatternShape("-bad.com");
    }
  }

  lemma RejectsEmptyLabel()
    ensures DomainSubmission("example..com") == Reject(InvalidDomainFormat)
  {
    var d := "example..com";
    assert IndexOf(d, '.') == 7 by {
      assert d[7] == '.';
      assert forall j :: 0 <= j < 7 ==> d[j] != '.';
    }
    assert Split(d, '.') == ["example"] + Split(".com", '.') by {
      assert d[..7] == "example" && d[8..] == ".com";
    }
    assert Split(".com", '.')[0] == "" by {
      assert IndexOf(".com", '.') == 0;
    }
    assert !ValidLabel(Split(d, '.')[1]);
    assert d != "";
  }
}

=== FILE: severity.dfy ===
/** The severity badge shown next to a breach (`getBadgeVariant`, defined
    identically on the breach-analytics page and on the scan page). */
module Severity {

  import opened Wrappers
  import opened Text

  datatype BadgeVariant = Destructive | Secondary | Outline

  /** "high", "medium" and "low" in any letter case; a missing severity or any
      other word falls back to the neutral variant. */
  function BadgeVariantOf(severity: Option<string>): (v: BadgeVariant)
    ensures v == Destructive <==> severity.Some? && Lower(severity.value) == "high"
    ensures v == Outline <==> severity.Some? && Lower(severity.value) == "low"
  {
    match severity
    case None => Secondary
    case Some(s) =>
      var folded := Lower(s);
      if folded == "high" then Destructive
      else if folded == "medium" then Secondary
      else if folded == "low" then Outline
      else Secondary
  }

  /** The variant depends on the letters only, not on their case. */
  lemma CaseInsensitive(s: string)
    ensures BadgeVariantOf(Some(s)) == BadgeVariantOf(Some(Lower(s)))
  {
    LowerIdempotent(s);
  }

  /** "medium", a missing severity and unrecognised words share the neutral variant. */
  lemma NeutralFallback(severity: Option<string>)
    requires severity.None? || Lower(severity.value) !in {"high", "low"}
    ensures BadgeVariantOf(severity) == Secondary
  {
  }

  lemma UpperCaseExamples()
    ensures BadgeVariantOf(Some("HIGH")) == Destructive
    ensures BadgeVariantOf(Some("Low")) == Outline
    ensures BadgeVariantOf(Some("Medium")) == Secondary
    ensures BadgeVariantOf(Some("critical")) == Secondary
  {
    LowerIsPointwise("HIGH");
    assert Lower("HIGH") == "high";
    LowerIsPointwise("Low");
    assert Lower("Low") == "low";
    LowerIsPointwise("Medium");
    assert Lower("Medium") == "medium";
    LowerIsPointwise("critical");
    assert Lower("critical")[0] == 'c';
  }
}

=== FILE: sums.dfy ===
/** Sums of an integer-valued measure over a sequence, with the algebra the
    aggregation proofs need. */
module Sums {

  function Sum<T>(s: seq<T>, f: T -> int): int
  {
    if |s| == 0 then 0 else f(s[0]) + Sum(s[1..], f)
  }

  lemma {:induction false} SumAppend<T>(a: seq<T>, b: seq<T>, f: T -> int)
    ensures Sum(a + b, f) == Sum(a, f) + Sum(b, f)
  {
    if |a| == 0 {
      assert a + b == b;
    } else {
      assert (a + b)[1..] == a[1..] + b;
      SumAppend(a[1..], b, f);
    }
  }

  /** Replacing one element changes the sum by exactly the difference of the two measures. */
  lemma {:induction false} SumUpdate<T>(s: seq<T>, i: nat, x: T, f: T -> int)
    requires i < |s|
    ensures Sum(s[i := x], f) == Sum(s, f) - f(s[i]) + f(x)
  {
    if i > 0 {
      assert s[i := x][1..] == s[1..][i - 1 := x];
      SumUpdate(s[1..], i - 1, x, f);
    }
  }

  /** A sum of pointwise-smaller measures is smaller. */
  lemma {:induction false} SumMonotone<T>(s: seq<T>, f: T -> int, g: T -> int)
    requires forall i :: 0 <= i < |s| ==> f(s[i]) <= g(s[i])
    ensures Sum(s, f) <= Sum(s, g)
  {
    if |s| > 0 {
      SumMonotone(s[1..], f, g);
    }
  }

  /** With a non-negative measure, the sum is non-negative and at least each term. */
  lemma {:induction false} SumDominatesTerms<T>(s: seq<T>, f: T -> int)
    ensures (forall i :: 0 <= i < |s| ==> f(s[i]) >= 0) ==>
              0 <= Sum(s, f) && forall i :: 0 <= i < |s| ==> f(s[i]) <= Sum(s, f)
  {
    if |s| > 0 {
      SumDominatesTerms(s[1..], f);
      assert forall i :: 0 < i < |s| ==> s[i] == s[1..][i - 1];
    }
  }
}

=== FILE: text.dfy ===
/** Character classes and the few string operations the dashboard relies on:
    ASCII lower-casing (`toLowerCase` on the words it compares), substring
    search (`includes`), integer rendering (`toString`) and splitting on a
    separator. */
module Text {

  import opened Wrappers

  predicate IsDigit(c: char) { '0' <= c <= '9' }

  predicate IsAsciiLetter(c: char) { 'a' <= c <= 'z' || 'A' <= c <= 'Z' }

  /** The class `[a-zA-Z0-9]`. */
  predicate IsAlnum(c: char) { IsAsciiLetter(c) || IsDigit(c) }

  function LowerChar(c: char): char
  {
    if 'A' <= c <= 'Z' then (c as int + 32) as char else c
  }

  /** ASCII lower-casing, character by character. */
  function Lower(s: string): string
  {
    if |s| == 0 then [] else [LowerChar(s[0])] + Lower(s[1..])
  }

  lemma {:induction false} LowerIsPointwise(s: string)
    ensures |Lower(s)| == |s|
    ensures forall i :: 0 <= i < |s| ==> Lower(s)[i] == LowerChar(s[i])
  {
    if |s| > 0 {
      LowerIsPointwise(s[1..]);
    }
  }

  /** Lower-casing is idempotent: folding an already folded string changes nothing. */
  lemma {:induction false} LowerIdempotent(s: string)
    ensures Lower(Lower(s)) == Lower(s)
  {
    if |s| > 0 {
      LowerIdempotent(s[1..]);
      assert Lower(s)[1..] == Lower(s[1..]);
    }
  }

  predicate StartsWith(s: string, prefix: string)
  {
    |prefix| <= |s| && s[..|prefix|] == prefix
  }

  /** `s.includes(sub)`, searched left to right. */
  predicate Contains(s: string, sub: string)
    decreases |s|
  {
    StartsWith(s, sub) || (|s| > 0 && Contains(s[1..], sub))
  }

  /** `sub` occurs in `s` starting at position `i`. */
  predicate OccursAt(s: string, sub: string, i: nat)
  {
    i + |sub| <= |s| && s[i..i + |sub|] == sub
  }

  /** An occurrence after the first character is an occurrence in the rest. */
  lemma OccursAtShift(s: string, sub: string, i: nat)
    requires |s| > 0
    ensures OccursAt(s, sub, i + 1) <==> OccursAt(s[1..], sub, i)
  {
    if i + 1 + |sub| <= |s| {
      assert s[i + 1..i + 1 + |sub|] == s[1..][i..i + |sub|];
    }
  }

  /** The search agrees with the positional definition of an occurrence. */
  lemma {:induction false} ContainsIffOccurrence(s: string, sub: string)
    ensures Contains(s, sub) <==> exists i: nat :: OccursAt(s, sub, i)
    decreases |s|
  {
    if StartsWith(s, sub) {
      assert OccursAt(s, sub, 0);
    } else if |s| > 0 {
      ContainsIffOccurrence(s[1..], sub);
      if exists i: nat :: OccursAt(s, sub, i) {
        var i: nat :| OccursAt(s, sub, i);
        assert i != 0;
        OccursAtShift(s, sub, i - 1);
      }
      if exists i: nat :: OccursAt(s[1..], sub, i) {
        var i: nat :| OccursAt(s[1..], sub, i);
        OccursAtShift(s, sub, i);
      }
    }
  }

  /** A string cannot contain a non-empty word whose first character it lacks. */
  lemma {:induction false} MissingFirstCharNotContained(s: string, sub: string)
    requires |sub| > 0 && sub[0] !in s
    ensures !Contains(s, sub)
    decreases |s|
  {
    if |s| > 0 {
      assert s[0] in s;
      assert forall c :: c in s[1..] ==> c in s;
      MissingFirstCharNotContained(s[1..], sub);
    }
  }

  // ---------------------------------------------------------------------------
  // Decimal rendering of integers (`String(n)` for an integral number)

  function DigitChar(d: int): char
    requires 0 <= d < 10
  {
    ('0' as int + d) as char
  }

  function DigitValue(c: char): int
  {
    if IsDigit(c) then c as int - '0' as int else 0
  }

  function NatToString(n: nat): (s: string)
    ensures |s| > 0
  {
    if n < 10 then [DigitChar(n)] else NatToString(n / 10) + [DigitChar(n % 10)]
  }

  function IntToString(n: int): string
  {
    if n < 0 then "-" + NatToString(-n) else NatToString(n)
  }

  /** Reads a decimal digit string, most significant digit first. */
  function ParseDigits(s: string): int
  {
    if |s| == 0 then 0 else 10 * ParseDigits(s[..|s| - 1]) + DigitValue(s[|s| - 1])
  }

  predicate AllDigits(s: string) { forall i :: 0 <= i < |s| ==> IsDigit(s[i]) }

  function ParseInt(s: string): Option<int>
  {
    if |s| > 0 && s[0] == '-' then
      if |s| > 1 && AllDigits(s[1..]) then Some(-ParseDigits(s[1..])) else None
    else if |s| > 0 && AllDigits(s) then Some(ParseDigits(s))
    else None
  }

  /** Rendering produces digits only, without a superfluous leading zero, and reads back. */
  lemma {:induction false} NatToStringRoundTrip(n: nat)
    ensures AllDigits(NatToString(n))
    ensures NatToString(n)[0] == '0' ==> n == 0
    ensures ParseDigits(NatToString(n)) == n
  {
    var s := NatToString(n);
    if n >= 10 {
      NatToStringRoundTrip(n / 10);
      assert s[..|s| - 1] == NatToString(n / 10);
    }
  }

  lemma IntToStringRoundTrip(n: int)
    ensures ParseInt(IntToString(n)) == Some(n)
  {
    if n < 0 {
      NatToStringRoundTrip(-n);
      assert IntToString(n)[1..] == NatToString(-n);
    } else {
      NatToStringRoundTrip(n);
    }
  }

  // ---------------------------------------------------------------------------
  // Splitting on a separator character (`s.split(sep)`) and its inverse

  /** Position of the first `c` in `s`, or `|s|` when there is none. */
  function IndexOf(s: string, c: char): (k: nat)
    ensures k <= |s|
    ensures k < |s| ==> s[k] == c
    ensures forall j :: 0 <= j < k ==> s[j] != c
  {
    if |s| == 0 then 0 else if s[0] == c then 0 else 1 + IndexOf(s[1..], c)
  }

  function Split(s: string, sep: char): (parts: seq<string>)
    ensures |parts| > 0
    decreases |s|
  {
    var k := IndexOf(s, sep);
    if k == |s| then [s] else [s[..k]] + Split(s[k + 1..], sep)
  }

  function Join(parts: seq<string>, sep: char): string
  {
    if |parts| == 0 then ""
    else if |parts| == 1 then parts[0]
    else parts[0] + [sep] + Join(parts[1..], sep)
  }

  /** Joining the parts restores the original string. */
  lemma {:induction false} JoinSplit(s: string, sep: char)
    ensures Join(Split(s, sep), sep) == s
    decreases |s|
  {
    var k := IndexOf(s, sep);
    if k < |s| {
      JoinSplit(s[k + 1..], sep);
      var rest := Split(s[k + 1..], sep);
      var parts := Split(s, sep);
      assert parts == [s[..k]] + rest;
      assert |parts| > 1 && parts[0] == s[..k] && parts[1..] == rest;
      calc {
        Join(parts, sep);
        s[..k] + [sep] + Join(rest, sep);
        s[..k] + [sep] + s[k + 1..];
        { assert s == s[..k] + [sep] + s[k + 1..]; }
        s;
      }
    }
  }
}

=== FILE: wrappers.dfy ===
/** Optional values: the model's stand-in for a JSON field that may be missing. */
module Wrappers {

  datatype Option<+T> = None | Some(value: T) {

    /** The wrapped value, or `default` when the field is missing. */
    function GetOr(default: T): T {
      match this
      case Some(v) => v
      case None => default
    }
  }

  /** The outcome of a call that may throw: a value, or the message of the error thrown. */
  datatype Result<+T> = Success(value: T) | Failure(error: string)
}
